=== FILE: README.md ===
# suplog, modelled in Dafny

This project models the deterministic core of `github.com/xlab/suplog`, a Go logging
library layered on logrus. It covers the following parts:

- **The stack-frame resolver** (`stackcache`). It finds a log call's caller as the first
  frame outside the library's own package, with a special case for Go's test runner. It
  also lists the external frames for error reports and caches the depth at which the
  library's frames start.
- **The level table and `ParseLevel`**.
- **The field-map helpers** of `fields.go`.
- **The three hooks**:
  - the debug hook adds `fn`, `src` and `ver` fields;
  - the blob hook moves a `blob` payload to a store;
  - the bugsnag hook builds error reports, including parsing pkg/errors stack-trace text.
- **The logger value**:
  - construction and lazy initialisation with the default hooks;
  - `With*` copies and `Close`;
  - `CallerName`;
  - how the convenience methods route to levels and to process exit.

How the model is built:

- Go's `runtime.Callers` becomes an input: the call stack as a `seq<Frame>`.
- `os.Getenv` becomes an `Env` map.
- The blob store, the ULID source and the bugsnag notifier become inputs or plain results:
  - whether the remote is up;
  - the blob ID;
  - the upload issued;
  - the report handed over.
- Go maps become Dafny maps, returned rather than mutated.
- Each operation is a function or a method. Most have a reference definition, and lemmas
  connect the operation to that reference, its inverse or an invariant it keeps.

Modules, in dependency order: `Wrappers`, `Text` (the Go `strings`/`strconv`/`os` pieces
used), `Levels`, `StackCache`, `Values` (field values and the Go error capabilities the hooks
probe for), `FieldMaps`, `Paths` (`limitPath`), `ErrorStack`, `DebugHook`, `BlobHook`,
`BugsnagHook`, `Suplog`.

Three behaviours of the code that a reader might not expect, each stated by a lemma:

- **Closing a copy.** `Close` is idempotent only per logger value. `copy` (suplog.go:407-416)
  carries `closed` by value, and `Close` (suplog.go:366-385) checks only the receiver's own
  flag. A child taken before `Close` therefore closes the shared writer a second time
  (`Suplog.CopyBeforeCloseClosesAgain`).
- **Closing the default logger early.** `DefaultLogger` is the zero `suplogger`
  (default.go:12), whose mutex is nil until `initOnce` runs. `Close` locks that mutex without
  calling `initOnce` first (suplog.go:370), so closing the default logger before any other
  call dereferences a nil pointer (`Suplog.DefaultLoggerCloseNeedsInit`).
- **The extra stack offset.** `suplog.go:97` and `hooks/bugsnag/hook.go:103` pass three
  arguments to `stackcache.New`, but `stackcache/stackcache.go:17` takes two: a start offset
  and a breakpoint package. The model uses the two-argument constructor, so the extra offset
  has no effect.

## Model

| member | source | states |
|---|---|---|
| Levels.AllLevelsAreZeroToSix | const.go:9-28 | The seven named levels are the integers 0..6, from Panic to Trace, in declaration order. A level is named exactly when it is one of them. |
| Levels.ParseLevel | const.go:31-52 | Parsing succeeds exactly when the lower-cased name is one of the eight level names. On success the level is named, and the lower-cased name is its canonical name, or "warn" with the level Warn. On failure the level is Panic and the error text is "not a valid output Level: " followed by the name. |
| Levels.ParseLevelIgnoresCase | const.go:32 | Two names that lower-case alike parse to the same level, and either both fail or neither does. |
| Levels.ParseLevelName | const.go:33-46 | Every named level parses back, with no error, from its name spelled in any case. |
| Levels.LevelNameIsLowerCase | const.go:33-46 | The canonical level names are already lower case. |
| Levels.WarnAndWarningAgree | const.go:39-40 | "warn", "warning", "WARNING" and "Warn" all parse to WarnLevel. |
| Levels.BogusFails | const.go:47-51 | The unknown name "bogus" fails and yields the zero level, PanicLevel. |
| Text.Getenv | suplog.go:107 | An unset variable reads as "". A set one reads as its value. |
| Text.Atoi | hooks/bugsnag/errorstack.go:113-117 | Succeeds exactly when the text is an optionally signed run of decimal digits whose value fits in int64. The result is that value. The empty string fails. |
| Text.AtoiOfIntToString | hooks/bugsnag/errorstack.go:113-117 | Every int64 printed in decimal parses back to itself. |
| Text.AtoiErr | hooks/bugsnag/errorstack.go:113-117 | A rejected text is a range error exactly when it is not empty after its sign and either is all digits, so its value lies outside int64, or starts with digits already worth more than 2^64-1. Every other rejection is a syntax error. |
| Text.ScanUintMeetsFirst | hooks/bugsnag/errorstack.go:113-117 | The left-to-right scan stops with a range error exactly when the leading digits exceed 2^64-1. It stops with a syntax error when they fit but a non-digit follows, and otherwise it reads the whole text's value. |
| Text.RangeBeforeSyntax | hooks/bugsnag/errorstack.go:113-117 | Digits worth more than 2^64-1, followed by anything, fail to parse with a range error. |
| Text.SyntaxAfterDigits | hooks/bugsnag/errorstack.go:113-117 | Digits that fit in 64 bits, followed by a non-digit, fail to parse with a syntax error. |
| Text.ToLowerIdempotent | const.go:32 | Lower-casing twice is the same as lower-casing once. |
| Text.LastPieceShape | suplog.go:391-394 | The last piece of a split is the longest suffix without the separator. |
| Text.SplitJoin | hooks/bugsnag/errorstack.go:100-104 | Splitting the join of separator-free pieces gives back the pieces. |
| Text.JoinSplit | hooks/debug/hook.go:100-105 | Joining the pieces of a split gives back the string. |
| StackCache.PackageNameShape | stackcache/stackcache.go:119-131 | The package name is a prefix of the function name, cut at a `.` or not at all. The cut lies after the last `/`, and no `.` lies between that `/` and the cut. |
| StackCache.PackageNameCutsAtFirstDot | stackcache/stackcache.go:121-128 | The package name ends exactly at the first `.` after the last `/`. |
| StackCache.PackageNameWithoutSlash | stackcache/stackcache.go:121-128 | Without any `/`, everything from the first `.` on is removed, and the result holds no `.`. |
| StackCache.PackageNameFixedPoint | stackcache/stackcache.go:120-131 | A name is returned unchanged exactly when no `.` follows its last `/`. |
| StackCache.PackageNameIdempotent | stackcache/stackcache.go:120-131 | The package name has no `.` after its last `/`, so reducing it again changes nothing. |
| StackCache.PackageNameOfQualified | stackcache/stackcache.go:119-131 | A function `pkg.name` belongs to package `pkg`, when `name` has no `.` or `/` and `pkg` has no `.` after its last `/`. |
| StackCache.SuplogPackageIsAPackage | suplog.go:97 | The library's module path is its own package name. |
| StackCache.ShortNameShape | suplog.go:388-395 | The short name is the longest suffix of the function name that contains neither `/` nor `.`. |
| StackCache.ShortNameOfQualified | suplog.go:390-394 | The short name of `pkg.name` is `name`. |
| StackCache.Captured | stackcache/stackcache.go:43-45 | The capture holds at most `maximumCallerDepth` frames. They are the stack's frames from `minimumCallerDepth` on, as many as fit. |
| StackCache.GetCaller | stackcache/stackcache.go:42-75 | The method, written as the Go loop, returns the reference caller and the reference cache update. The breakpoint package and the maximum depth stay fixed. |
| StackCache.ScanForCaller | stackcache/stackcache.go:47-74 | The loop's invariants tie it to the reference: the frame it ends with is the reference caller among every captured frame but the last, and the cache it ends with is the reference update. |
| StackCache.CallerIsFirstOutside | stackcache/stackcache.go:62-70 | After the boundary, the first frame outside the breakpoint package is the caller, unless it is a test-runner frame. |
| StackCache.CallerIsBeforeTesting | stackcache/stackcache.go:64-66 | When that first outside frame is the test runner's, the caller is the frame scanned just before it. |
| StackCache.CallerWhenAllInside | stackcache/stackcache.go:47-74 | If no outside frame follows the boundary, the caller is the last examined frame, or the zero frame when none was examined. |
| StackCache.LocatedAt | stackcache/stackcache.go:55-60 | On the first breakpoint-package frame with the offset unset, the minimum depth grows by the frames scanned before it, and the flag is set. |
| StackCache.NotLocated | stackcache/stackcache.go:55-60 | A scan that never meets the breakpoint package leaves the cache as it was. |
| StackCache.CacheAfterSets | stackcache/stackcache.go:55-99 | A scan that meets the breakpoint package with the offset unset sets the flag and moves the minimum depth by the index of that frame. |
| StackCache.GetStackFrames | stackcache/stackcache.go:78-115 | The method returns the reference frame list and the same cache update as `GetCaller`. |
| StackCache.ScanForFrames | stackcache/stackcache.go:83-113 | The loop's invariants tie it to the reference list: the contributions, in scan order, of the frames after the boundary. |
| StackCache.StackFramesAreExternal | stackcache/stackcache.go:100-107 | Without test-runner frames, the reported frames are exactly the post-boundary frames outside the breakpoint package, in order. |
| StackCache.UsefulIsExternal | stackcache/stackcache.go:100-107 | The same statement for any segment of examined frames, and for any package assignment. |
| StackCache.TestingFrameKeepsItsCaller | stackcache/stackcache.go:101-103 | A test-runner frame that directly follows a breakpoint-package frame is reported together with that frame, just before it. |
| StackCache.UsefulAroundTesting | stackcache/stackcache.go:101-103 | The same insertion, stated for any package assignment. |
| StackCache.UsefulConcat | stackcache/stackcache.go:100-107 | The frames reported for adjacent segments are the concatenation of each segment's frames. |
| StackCache.ReplayAppend | stackcache/stackcache.go:55-99 | Replaying two runs of scans is replaying the first, then the second. |
| StackCache.SetCacheIsFixed | stackcache/stackcache.go:55-99 | Once the offset is set, no later scan changes the cache. |
| StackCache.UnsetReplayIsIdentity | stackcache/stackcache.go:55-60 | Scans that leave the flag unset leave the cache as it was. |
| StackCache.OffsetSetOnce | stackcache/stackcache.go:55-99 | In any run of calls, the first scan that sets the offset decides the cache for the rest of the run. |
| StackCache.ReplaySplit | stackcache/stackcache.go:55-60 | A run splits at any point into two consecutive replays. |
| StackCache.ReplayOne | stackcache/stackcache.go:55-60 | Replaying one scan is that scan's cache update. |
| StackCache.ReplayUpTo | stackcache/stackcache.go:55-60 | If the first i scans leave the cache unchanged, the run up to scan i+1 ends with that scan's update. |
| StackCache.OffsetCacheKeepsCaller | stackcache/stackcache.go:55-70 | After the first scan sets the offset, the same stack yields the same caller through the shifted window. |
| StackCache.CallerAfterShift | stackcache/stackcache.go:55-70 | The caller seen through a window shifted past the first breakpoint-package frame is unchanged. |
| StackCache.ShiftedWindow | stackcache/stackcache.go:43-46 | Starting the capture k frames deeper shifts the examined frames by k. |
| StackCache.TestFunctionIsItsOwnCaller | fields_test.go:14-19 | With TestCallerName's call shape, a test function in the breakpoint package is its own caller, and the scan fixes the offset at depth 2. |
| FieldMaps.CopyFields | fields.go:25-32 | The copy, built one key at a time, has exactly the entries of its input. |
| FieldMaps.WithMore | fields.go:16-23 | The keys are the union of both maps' keys. Keys in `add` take its values; every other key keeps its value from `fields`. The input is not changed, since it is a value. |
| FieldMaps.WithFn | fields.go:3-14 | "fn" is set to the caller name. With a non-nil first map, the result is that map's entries plus "fn". Otherwise "fn" is the only key. |
| Paths.LastN | hooks/debug/hook.go:100-105 | The last n elements, or all of them if there are fewer. |
| Paths.LimitPath | hooks/debug/hook.go:95-98 | A non-positive limit returns the path unchanged. |
| Paths.LimitPathSegments | hooks/debug/hook.go:100-105 | With a positive limit, the result's segments are the non-empty ones among the last n segments of the path, so there are at most n. |
| Paths.LimitPathIdempotent | hooks/debug/hook.go:95-106 | Limiting an already limited path changes nothing. |
| Paths.NonEmptyOfNonEmpty | hooks/debug/hook.go:100-105 | Filtering out empty elements keeps a sequence with none. |
| Paths.LimitPathKeepsLast | hooks/debug/hook.go:95-106 | A path whose last n segments are non-empty is cut down to exactly those n segments joined by `/`. |
| ErrorStack.NewErrorWithStackFrames | hooks/bugsnag/errorstack.go:30-55 | No error gives no error. Otherwise the message is kept, there is no pkg/errors trace, and there is one report frame per runtime frame, in order. |
| ErrorStack.ReportFrameShape | hooks/bugsnag/errorstack.go:35-48 | Each report frame keeps the function name, line and pc. Its file has at most three segments, and its package is a prefix of the function name cut only at a `.`. |
| ErrorStack.ParseLocationShape | hooks/bugsnag/errorstack.go:107-118 | A location that parses has a `:`. The file is the text before the last `:`, the line is the int64 value of the non-empty text after it, and the file part may itself hold `:`. |
| ErrorStack.ParseFrameTextShape | hooks/bugsnag/errorstack.go:100-118 | A frame text that parses is a space-free function name, one space, and a location that parses. |
| ErrorStack.TwoPieces | hooks/bugsnag/errorstack.go:100-104 | A string splits into exactly two pieces when it holds exactly one separator. |
| ErrorStack.ParseFrameTextOfPrinted | hooks/bugsnag/errorstack.go:100-118 | The text "fn file:line" reads back as the same function, file and line, for every space-free name and file and every int64 line. |
| ErrorStack.ParseFrameTextSplits | hooks/bugsnag/errorstack.go:100-104 | A space-free name and a space-free location are split at the one space between them. |
| ErrorStack.ParseLocationOfPrinted | hooks/bugsnag/errorstack.go:107-118 | "file:line" reads back as the same file and int64 line. |
| ErrorStack.ParseFrameTextNeedsSpace | hooks/bugsnag/errorstack.go:100-104 | A frame text without a space fails. |
| ErrorStack.ParseLocationNeedsLine | hooks/bugsnag/errorstack.go:107-117 | A location with no `:`, or with nothing after its last `:`, fails. |
| ErrorStack.ConvertAllSucceeds | hooks/bugsnag/errorstack.go:85-129 | The conversion of a trace succeeds exactly when every one of its frames converts. |
| ErrorStack.ConvertAllElements | hooks/bugsnag/errorstack.go:85-129 | On success there is one output frame per trace frame, in order, each the conversion of its input. |
| ErrorStack.ConvertAllFailureSticks | hooks/bugsnag/errorstack.go:85-129 | If a prefix of the trace fails to convert, the whole trace fails, with the same error. |
| ErrorStack.NewErrorWithPkgErrorsStackTrace | hooks/bugsnag/errorstack.go:78-130 | The method, written as the Go loop, matches the all-or-nothing conversion. No error gives (nil, nil). On success the message is kept and the frames are the converted trace; on failure it returns the first failing frame's error. |
| DebugHook.CheckHookOptions | hooks/debug/hook.go:25-46 | Empty levels become [Debug, Trace]. A zero path limit becomes 3. An empty app version becomes APP_VERSION. Given values are kept. |
| DebugHook.CheckHookOptionsIdempotent | hooks/debug/hook.go:25-46 | Checking checked options changes nothing. |
| DebugHook.NewHook | hooks/debug/hook.go:56-64 | The hook holds checked options and a fresh stack cache. The cache starts at depth 6, stops at the library's package, and has no offset set. |
| DebugHook.DefaultLevels | hooks/debug/hook.go:72-74 | A default hook fires at Debug and Trace. |
| DebugHook.Annotate | hooks/debug/hook.go:76-93 | "fn" becomes the caller's short name, but only for a non-empty function name. "src" is always set. "ver" is set exactly when the app version is non-empty. No other key changes. |
| DebugHook.Fire | hooks/debug/hook.go:76-93 | Firing annotates with the caller found by the hook's cache, updates that cache, and returns nil. |
| DebugHook.FnIsShortName | hooks/debug/hook.go:79-83 | The "fn" value contains neither `/` nor `.`, and is the longest such tail of the function name. |
| DebugHook.SourceTextReadsBack | hooks/debug/hook.go:85-86 | The "src" value, read by the bugsnag hook's location rule, gives back the limited file and the line. |
| BlobHook.OrEnv | hooks/blob/hook.go:41-63 | An empty option falls back to the named environment variable. |
| BlobHook.CheckHookOptions | hooks/blob/hook.go:27-78 | The environment is the given value, else APP_ENV, else "local", and is never empty. The store URL, account, key, endpoint, region and bucket each keep a given value, else read LOG_BLOB_STORE_URL, _ACCOUNT, _KEY, _ENDPOINT, _REGION or _BUCKET. A zero TTL becomes 30 days. An empty enabled-env map becomes prod, staging and test. Given values are kept. |
| BlobHook.CheckHookOptionsIdempotent | hooks/blob/hook.go:29-78 | Checking checked options changes nothing. |
| BlobHook.NewHook | hooks/blob/hook.go:88-111 | The hook carries the checked options. Its remote is up exactly when `NewS3Remote` and `CheckAccess(env)` both succeeded, which the model takes as an input; on either failure the hook is still returned, without a remote. |
| BlobHook.HookLevels | hooks/blob/hook.go:120-130 | The hook fires at exactly the seven named levels. |
| BlobHook.Fire | hooks/blob/hook.go:132-172 | Without "blob", nothing changes. A down remote, a disabled environment, or a value that is neither a string nor bytes deletes "blob" without upload. No key but "blob" ever changes. |
| BlobHook.FireUploadsExactlyWhen | hooks/blob/hook.go:138-176 | Exactly one upload is issued exactly when the remote is up, the environment is enabled and the value carries a payload. The upload's key is the environment joined with the ID, and "blob" then holds the reference. |
| BlobHook.ObjectKeyJoins | hooks/blob/hook.go:174-176 | The object key is the environment, "/", and the blob ID. |
| BlobHook.BlobRefEndsWithID | hooks/blob/hook.go:161-169 | The reference is the store URL, or the environment when the URL is empty, followed by "/" and the blob ID. |
| BugsnagHook.ToBool | hooks/bugsnag/hook.go:236-243 | Reads true exactly for "true", "1", "t" and "yes" after lower-casing. |
| BugsnagHook.ToBoolIgnoresCase | hooks/bugsnag/hook.go:236-243 | Strings that lower-case alike read alike. |
| BugsnagHook.CheckHookOptions | hooks/bugsnag/hook.go:30-79 | Levels default to Panic, Fatal, Error, Warn. The environment is the given value, else APP_ENV, else "local". The app version and API key are the given values, else APP_VERSION and LOG_BUGSNAG_KEY. Catch-all is on when given, or when LOG_BUGSNAG_CATCH_ALL reads true. Enabled environments default to prod, staging and test, and packages to main and the library's packages. Given lists are kept. |
| BugsnagHook.CheckHookOptionsIdempotent | hooks/bugsnag/hook.go:30-79 | Checking checked options changes nothing. |
| BugsnagHook.NewHook | hooks/bugsnag/hook.go:92-114 | Checked options and a fresh cache at depth 6. The notifier gets the environment as its release stage and the enabled environments as its notify stages. Bugsnag's panic handler stays installed exactly when catch-all is on. |
| BugsnagHook.DefaultLevels | hooks/bugsnag/hook.go:123-125 | A default hook fires at Warn and the more severe levels. |
| BugsnagHook.SeverityByLevel | hooks/bugsnag/hook.go:165-178 | Error severity exactly at Error and more severe levels. Warning exactly at Warn. Info at all other levels. Delivery is synchronous exactly at Fatal and Panic. |
| BugsnagHook.CaptureUserMeta | hooks/bugsnag/hook.go:193-213 | Each user attribute is the string under its `@user.*` key, or "" when there is none. Exactly the string-valued user keys are removed, and every other entry stays unchanged. |
| BugsnagHook.FieldsToMetaData | hooks/bugsnag/hook.go:215-234 | No fields give empty metadata. Otherwise there is one "Fields" tab holding every field except "blob" and "error", with its value unchanged. |
| BugsnagHook.OnlyBlobAndErrorGiveEmptyTab | hooks/bugsnag/hook.go:215-234 | Fields holding only "blob" and "error" still give a "Fields" tab, an empty one. |
| BugsnagHook.ReportFramesOf | hooks/bugsnag/errorstack.go:35-48 | One report frame per runtime frame, in order. |
| BugsnagHook.ReportError | hooks/bugsnag/hook.go:133-163 | An error that already has frames is reported as it is. A pkg/errors trace that converts gives the converted frames. Otherwise the frames come fresh from the cache, including after a failed conversion or when there is no error. The message is the error's, or the log message when there is no error, and the cache moves only when fresh frames are taken. |
| BugsnagHook.Fire | hooks/bugsnag/hook.go:127-191 | The report combines the selected error, the level's severity and sync flag, the user record, and metadata computed after the user keys are removed. The context is the message exactly when an error field exists and the message is non-empty. The result is always nil. |
| BugsnagHook.UserFieldsLeaveMetaData | hooks/bugsnag/hook.go:180-181 | A string-valued user field never reaches the metadata. |
| Suplog.NewLogger | suplog.go:21-49 | The writer is kept as given. The formatter defaults to text, the level is Debug, and the given hooks are installed in order. The entry is empty, the logger is marked initialised and open, and it has a mutex and a cache at depth 1. |
| Suplog.IsTrue | suplog.go:397-404 | Reads true exactly for "1", "true" and "y" after lower-casing. |
| Suplog.IsTrueIgnoresCase | suplog.go:397-398 | Flags that lower-case alike read alike. |
| Suplog.IsTrueAndToBoolDiffer | suplog.go:397-404 | "y" reads true only here, "t" and "yes" only for the bugsnag hook's reader, and "1" and "TRUE" for both. |
| Suplog.DefaultHooksInstalled | suplog.go:102-117 | There is exactly one debug hook, and it comes first. There is one blob hook exactly when LOG_BLOB_ENABLED reads true, one bugsnag hook exactly when LOG_BUGSNAG_ENABLED reads true, and no other hook. |
| Suplog.InitOnce | suplog.go:65-98 | An initialised logger is left alone. Otherwise a nil writer becomes standard error, and the logger gets the text formatter, Debug level, the default hooks, an empty entry, a fresh stack cache at depth 1 for the library's package (offset unset), and a mutex. |
| Suplog.InitOnceIdempotent | suplog.go:65-70 | A second initialisation changes nothing, whatever the environment says by then. |
| Suplog.NewLoggerNeedsNoInit | suplog.go:21-70 | A constructed logger is never re-initialised. |
| Suplog.Copy | suplog.go:407-416 | A copy keeps the writer, core, stack cache and mutex. It carries `initDone` and `closed` as they are now, with an empty entry and offset 0. |
| Suplog.WithField | suplog.go:122-129 | The receiver is initialised, and the result is a copy of it. Its entry is the receiver's plus the key, with the new value winning. |
| Suplog.WithFields | suplog.go:133-139 | The same, with the given fields merged over the receiver's and the given ones winning. |
| Suplog.WithError | suplog.go:143-149 | The receiver is initialised and kept. The derived entry holds every field of the receiver's entry plus "error", whose value is the error, or nil. |
| Suplog.WithContextOrTime | suplog.go:152-167 | The same, with the entry's fields unchanged. |
| Suplog.WithFieldKeepsReceiver | suplog.go:407-416 | Deriving leaves an initialised receiver as it was. The derived logger is closed exactly when the receiver is, and a new key is the only difference between the two entries. |
| Suplog.Close | suplog.go:368-385 | Without a mutex, `Close` panics. A closed logger returns nil. Otherwise the logger becomes closed and returns the writer's close error if the writer is a closer, else nil. |
| Suplog.CloseIdempotent | suplog.go:373-375 | The second `Close` on a logger value returns nil and closes nothing. |
| Suplog.CopyBeforeCloseClosesAgain | suplog.go:368-385 | A copy taken before `Close` still closes the shared writer, with the same outcome. |
| Suplog.DefaultLoggerCloseNeedsInit | suplog.go:369-370 | The zero-value logger panics on `Close`. Once initialised, it closes with nil. |
| Suplog.CallerName | suplog.go:388-395 | The method initialises the logger and asks its cache for the caller. It returns the last `.`-part of the last `/`-part of the caller's function name, and the cache update. |
| Suplog.TestCallerNameIsOwnName | fields_test.go:14-19 | In TestCallerName's call shape, a new logger's `CallerName` is "TestCallerName". |
| Suplog.RouteExitsOnlyForFatal | suplog.go:169-315 | Every method makes exactly one entry, first. Exit(1) follows it exactly for Fatal, Fatalf and Fatalln. Suplog's own code adds no exit other than Fatal's; the PanicLevel panic happens inside logrus (see "## Left out"). |
| Suplog.LogAtFatalDoesNotExit | suplog.go:169-250 | `Log`, `Logf` and `Logln` at Fatal level log and return. |
| Suplog.RouteLevelFollowsName | suplog.go:174-315 | A method named after a level logs at the level its name parses to. Notification and Success log at Info. |
| Suplog.RouteStyleFollowsName | suplog.go:169-315 | `f` methods format with Sprintf and `ln` methods with Sprintln. Among the rest, exactly Debug, Notification, Success, Warning and Error use Sprintf. |

## Left out

- Everything logrus does once an entry is handed over is left out, because that code is not
  part of this model:
  - level filtering;
  - calling hooks in order;
  - formatting and writing;
  - the write mutex;
  - `Entry.Log` panicking at PanicLevel.

  This covers `SetLevel`, `GetLevel`, `IsLevelEnabled`, `SetFormatter`, `SetOutput`,
  `AddHook` and `ReplaceHooks`, which only delegate to logrus.
- Print, Printf, Println: routed to logrus's Print family, which picks the level itself.
- `runtime.Callers` and `runtime.CallersFrames`: the call stack is an input sequence of frames.
- `sync.Once` and concurrency:
  - in the stack cache, the once-guard and `offsetIsSet` are one boolean;
  - in the logger, the once-guard is `initDone`;
  - races on the offset and on `Close` are not modelled.
- Suplog.Copy: the writer, logrus logger, stack cache and mutex that Go's `copy` shares by
  pointer are modelled as equal values at copy time. A later change made through one of
  them is not seen by the others. For example, `SetLevel` on a copy does not reach its
  receiver. Likewise, when a child's `CallerName` fixes the stack-cache offset, the receiver
  and its other copies do not see the fixed offset, because the cache update is returned
  only with the child.
- Suplog.StackTraceCache: `SetStackTraceOffset` and the wrapper offset are not modelled. The
  source passes this offset as a third argument to a two-argument constructor, so it has no
  defined meaning.
- BugsnagHook.NewHook: the `StackTraceOffset` option is kept in the options but does not
  reach the cache, for the same reason.
- `os.Getenv`: passed in as a map.
- FieldMaps.WithFn: the caller name is an input. It stands for `Suplog.CallerName` on
  `DefaultLogger` (fields.go:6 and :12). That call's effects on the default logger are not
  modelled: its initialisation (reading the environment and installing the default hooks,
  including the blob hook's remote set-up) and the stack-cache offset it may fix.
- The three `checkHookOptions` functions write their defaults into the caller's
  `*HookOptions` in place. The model returns the checked options, and the caller's value is
  left as it was.
- The blob hook's diagnostics to its root logger are not modelled. They are the errors when
  the remote fails to come up (hooks/blob/hook.go:102 and :105), the warning and the debug
  line when a payload is dropped (hooks/blob/hook.go:139 and :144), and the error on a failed
  upload (hooks/blob/hook.go:179).
- `filepath.Join` is modelled as joining the non-empty parts with `/`. It does not apply Go's
  `Clean`, so `..` and `.` are not resolved, repeated separators are not merged and a trailing
  separator is not dropped. For an environment name `"prod/"`, the blob hook's object key is
  `"prod/<id>"` in Go but `"prod//<id>"` in the model (`BlobHook.ObjectKeyJoins` assumes clean
  names).
- `strings.ToLower` is ASCII-only: non-ASCII letters are not lower-cased.
- `strconv.Atoi`'s error text quotes the input without Go's escaping of special characters.
  The text is otherwise modelled from the Go standard library's `Atoi`, `ParseInt` and
  `ParseUint`, which are not part of this repository.
- hooks/blob/s3.go, the AWS SDK and the upload itself: the remote is a boolean, and an upload
  is a returned value. A failed upload, which the source only reports to the root logger, is
  not modelled.
- hooks/blob/ulid.go: the blob ID is an input string.
- The bugsnag notifier and its delivery: `Fire`'s outcome is the report it hands over.
- pkg/errors `MarshalText`: each trace frame carries its text, or its error, as an input.
- `logrus.Entry.WithFields`' rejection of function-typed values: the modelled value kinds
  include no functions.
- The context and time that `WithContext` and `WithTime` attach are not modelled, because
  they are entry attributes outside the field map.

=== FILE: blobhook.dfy ===
/** The blob hook (hooks/blob/hook.go): moves a `"blob"` field's payload to a blob store
    and leaves a reference to it in its place. The S3 remote is reduced to whether it came
    up, a blob ID is an input (it comes from a clock and a random source), and the upload
    is an effect the hook returns. */
module BlobHook {
  import opened Wrappers
  import opened Text
  import opened Levels
  import opened Values
  import opened Paths

  /** `HookOptions`; the retention TTL is a `time.Duration`, in nanoseconds. */
  datatype Options = Options(
    env: string,
    blobStoreURL: string,
    blobStoreAccount: string,
    blobStoreKey: string,
    blobStoreEndpoint: string,
    blobStoreRegion: string,
    blobStoreBucket: string,
    blobRetentionTTL: int,
    blobEnabledEnv: map<string, bool>)

  /** The zero `HookOptions`, which a `nil` options pointer stands for. */
  const ZeroOptions: Options := Options("", "", "", "", "", "", "", 0, map[])

  /** `DefaultRenentionTTL`: 30 days. */
  const DefaultRetentionTTL: int := 30 * 24 * 3600 * 1_000_000_000

  /** The environments that upload by default. */
  const DefaultEnabledEnv: map<string, bool> := map["prod" := true, "staging" := true, "test" := true]

  /** An empty string option falls back to an environment variable. */
  function OrEnv(value: string, env: Env, key: string): (r: string)
    ensures value != "" ==> r == value
    ensures value == "" ==> r == Getenv(env, key)
  {
    OrElse(value, Getenv(env, key))
  }

  /** `checkHookOptions`: the environment name falls back to `APP_ENV` and then to
      "local", the store settings to their `LOG_BLOB_STORE_*` variables, a zero TTL to 30
      days and an empty enabled-environment map to prod, staging and test. */
  function CheckHookOptions(opt: Option<Options>, env: Env): (o: Options)
    ensures var given := opt.GetOr(ZeroOptions);
      && o.env != ""
      && (given.env != "" ==> o.env == given.env)
      && (given.env == "" && Getenv(env, "APP_ENV") != "" ==> o.env == Getenv(env, "APP_ENV"))
      && (given.env == "" && Getenv(env, "APP_ENV") == "" ==> o.env == "local")
      && o.blobStoreURL == OrEnv(given.blobStoreURL, env, "LOG_BLOB_STORE_URL")
      && o.blobStoreAccount == OrEnv(given.blobStoreAccount, env, "LOG_BLOB_STORE_ACCOUNT")
      && o.blobStoreKey == OrEnv(given.blobStoreKey, env, "LOG_BLOB_STORE_KEY")
      && o.blobStoreEndpoint == OrEnv(given.blobStoreEndpoint, env, "LOG_BLOB_STORE_ENDPOINT")
      && o.blobStoreRegion == OrEnv(given.blobStoreRegion, env, "LOG_BLOB_STORE_REGION")
      && o.blobStoreBucket == OrEnv(given.blobStoreBucket, env, "LOG_BLOB_STORE_BUCKET")
      && (given.blobRetentionTTL != 0 ==> o.blobRetentionTTL == given.blobRetentionTTL)
      && (given.blobRetentionTTL == 0 ==> o.blobRetentionTTL == DefaultRetentionTTL)
      && (|given.blobEnabledEnv| != 0 ==> o.blobEnabledEnv == given.blobEnabledEnv)
      && (|given.blobEnabledEnv| == 0 ==> o.blobEnabledEnv == DefaultEnabledEnv)
  {
    var given := opt.GetOr(ZeroOptions);
    var appEnv := OrEnv(given.env, env, "APP_ENV");
    Options(
      OrElse(appEnv, "local"),
      OrEnv(given.blobStoreURL, env, "LOG_BLOB_STORE_URL"),
      OrEnv(given.blobStoreAccount, env, "LOG_BLOB_STORE_ACCOUNT"),
      OrEnv(given.blobStoreKey, env, "LOG_BLOB_STORE_KEY"),
      OrEnv(given.blobStoreEndpoint, env, "LOG_BLOB_STORE_ENDPOINT"),
      OrEnv(given.blobStoreRegion, env, "LOG_BLOB_STORE_REGION"),
      OrEnv(given.blobStoreBucket, env, "LOG_BLOB_STORE_BUCKET"),
      if given.blobRetentionTTL == 0 then DefaultRetentionTTL else given.blobRetentionTTL,
      if |given.blobEnabledEnv| == 0 then DefaultEnabledEnv else given.blobEnabledEnv)
  }

  /** Checked options are checked: a second pass changes nothing. */
  lemma CheckHookOptionsIdempotent(opt: Option<Options>, env: Env)
    ensures CheckHookOptions(Some(CheckHookOptions(opt, env)), env) == CheckHookOptions(opt, env)
  {
  }

  /** `Levels`: the hook fires at every level. */
  function HookLevels(): (ls: seq<Level>)
    ensures forall l: Level :: l in ls <==> Named(l)
  {
    AllLevelsAreZeroToSix();
    [PanicLevel, FatalLevel, ErrorLevel, WarnLevel, InfoLevel, DebugLevel, TraceLevel]
  }

  /** The hook: its checked options and whether the S3 remote came up (`NewS3Remote` and
      `CheckAccess` both succeeded). */
  datatype Hook = Hook(opt: Options, remote: bool)

  /** `NewHook`, with the outcome of setting up the remote as an input: `remoteUp` is whether
      `NewS3Remote` and `CheckAccess` both succeeded. On either failure the hook is still
      returned, with no remote. */
  function NewHook(opt: Option<Options>, env: Env, remoteUp: bool): (h: Hook)
    ensures h.opt == CheckHookOptions(opt, env)
    ensures h.remote <==> remoteUp
  {
    Hook(CheckHookOptions(opt, env), remoteUp)
  }

  /** One `PutObject` call: the object key and the payload. */
  datatype Upload = Upload(key: string, payload: seq<bv8>)

  /** What one `Fire` leaves behind: the entry's fields and the upload it issued, if any. */
  datatype Fired = Fired(data: Fields, upload: Option<Upload>)

  /** Whether uploads are enabled in the hook's environment (a missing key reads false). */
  predicate Enabled(opt: Options) {
    opt.env in opt.blobEnabledEnv && opt.blobEnabledEnv[opt.env]
  }

  /** The payload a `"blob"` value carries, if it is of a kind the hook uploads. */
  function Payload(v: Value): Option<seq<bv8>> {
    match v
    case Str(s) => Some(StringBytes(s))
    case Bytes(b) => Some(b)
    case _ => None
  }

  /** The reference left in `"blob"`: the store URL, or the environment name when there is
      no URL, then `/` and the blob ID. */
  function BlobRef(opt: Options, blobID: string): string {
    (if |opt.blobStoreURL| > 0 then opt.blobStoreURL else opt.env) + "/" + blobID
  }

  /** `blobUpload`'s object key: `filepath.Join(env, blobID)`. */
  function ObjectKey(opt: Options, blobID: string): string {
    JoinPath([opt.env, blobID])
  }

  /** `Fire`, with `blobID` standing for `NewBlobID()`. It always returns nil; a failed
      upload is only logged, so the error it would carry is not part of the outcome. */
  function Fire(h: Hook, data: Fields, blobID: string): (f: Fired)
    ensures "blob" !in data ==> f == Fired(data, None)
    ensures forall k :: k != "blob" ==> (k in f.data <==> k in data) && (k in data ==> f.data[k] == data[k])
    ensures "blob" in data && (!h.remote || !Enabled(h.opt)) ==> "blob" !in f.data && f.upload.None?
    ensures "blob" in data && Payload(data["blob"]).None? ==> "blob" !in f.data && f.upload.None?
  {
    if "blob" !in data then Fired(data, None)
    else if !h.remote || !Enabled(h.opt) then Fired(data - {"blob"}, None)
    else
      match Payload(data["blob"])
      case None => Fired(data - {"blob"}, None)
      case Some(payload) =>
        Fired(data["blob" := Str(BlobRef(h.opt, blobID))], Some(Upload(ObjectKey(h.opt, blobID), payload)))
  }

  /** Exactly one upload is issued, under the environment-qualified ID, and exactly then
      `"blob"` survives, rewritten to the reference: when the entry has an uploadable
      `"blob"`, the remote is up and the environment is enabled. */
  lemma FireUploadsExactlyWhen(h: Hook, data: Fields, blobID: string)
    ensures var f := Fire(h, data, blobID);
      f.upload.Some? <==> "blob" in data && h.remote && Enabled(h.opt) && Payload(data["blob"]).Some?
    ensures var f := Fire(h, data, blobID);
      "blob" in data ==> ("blob" in f.data <==> f.upload.Some?)
    ensures var f := Fire(h, data, blobID);
      f.upload.Some? ==>
        && f.data["blob"] == Str(BlobRef(h.opt, blobID))
        && f.upload.value == Upload(ObjectKey(h.opt, blobID), Payload(data["blob"]).value)
  {
  }

  /** With an environment name and a blob ID, the object key is the two joined by `/`. */
  lemma ObjectKeyJoins(opt: Options, blobID: string)
    requires opt.env != "" && blobID != ""
    ensures ObjectKey(opt, blobID) == opt.env + "/" + blobID
  {
    NonEmptyOfNonEmpty([opt.env, blobID]);
    JoinTwo(opt.env, blobID, '/');
  }

  /** The reference ends in the blob ID after a `/`. */
  lemma BlobRefEndsWithID(opt: Options, blobID: string)
    ensures var r := BlobRef(opt, blobID);
      |r| > |blobID| && r[|r| - |blobID|..] == blobID && r[|r| - |blobID| - 1] == '/'
  {
  }
}

=== FILE: bugsnaghook.dfy ===
/** The bugsnag hook (hooks/bugsnag/hook.go): turns an entry into an error report, choosing
    where the report's error and stack come from, how severe it is, and which fields go
    along as user identity and metadata. Delivery by the notifier is not modelled: the
    hook's outcome is the report it hands over. */
module BugsnagHook {
  import opened Wrappers
  import opened Text
  import opened Levels
  import opened Values
  import opened StackCache
  import opened ErrorStack

  /** `HookOptions`. */
  datatype Options = Options(
    levels: seq<Level>,
    stackTraceOffset: int,
    env: string,
    appVersion: string,
    bugsnagAPIKey: string,
    bugsnagEnabledEnv: seq<string>,
    bugsnagPackages: seq<string>,
    bugsnagCatchAll: bool)

  /** The zero `HookOptions`, which a `nil` options pointer stands for. */
  const ZeroOptions: Options := Options([], 0, "", "", "", [], [], false)

  /** The spellings `toBool` accepts, after lower-casing. */
  const TrueSpellings: set<string> := {"true", "1", "t", "yes"}

  /** `toBool`. */
  function ToBool(s: string): (b: bool)
    ensures b <==> ToLower(s) in TrueSpellings
  {
    var v := ToLower(s);
    v == "true" || v == "1" || v == "t" || v == "yes"
  }

  /** `toBool` ignores the case of ASCII letters. */
  lemma ToBoolIgnoresCase(a: string, b: string)
    requires ToLower(a) == ToLower(b)
    ensures ToBool(a) == ToBool(b)
  {
  }

  /** The levels a hook without configured levels fires at. */
  const DefaultHookLevels: seq<Level> := [PanicLevel, FatalLevel, ErrorLevel, WarnLevel]

  /** The release stages that notify by default. */
  const DefaultEnabledEnv: seq<string> := ["prod", "staging", "test"]

  /** The packages bugsnag counts as the project's own by default. */
  const DefaultPackages: seq<string> := ["main", "github.com/xlab/suplog/*"]

  /** `checkHookOptions`: each empty option takes its default (the version and the API key
      from `APP_VERSION` and `LOG_BUGSNAG_KEY`), and a given one is kept; the catch-all
      flag, when off, is read from `LOG_BUGSNAG_CATCH_ALL`. */
  function CheckHookOptions(opt: Option<Options>, env: Env): (o: Options)
    ensures var given := opt.GetOr(ZeroOptions);
      && (given.levels != [] ==> o.levels == given.levels)
      && (given.levels == [] ==> o.levels == DefaultHookLevels)
    ensures var given := opt.GetOr(ZeroOptions);
      && o.env != ""
      && (given.env != "" ==> o.env == given.env)
      && (given.env == "" && Getenv(env, "APP_ENV") != "" ==> o.env == Getenv(env, "APP_ENV"))
      && (given.env == "" && Getenv(env, "APP_ENV") == "" ==> o.env == "local")
    ensures var given := opt.GetOr(ZeroOptions);
      o.bugsnagCatchAll <==> given.bugsnagCatchAll || ToBool(Getenv(env, "LOG_BUGSNAG_CATCH_ALL"))
    ensures var given := opt.GetOr(ZeroOptions);
      && o.appVersion == (if given.appVersion == "" then Getenv(env, "APP_VERSION") else given.appVersion)
      && o.bugsnagAPIKey == (if given.bugsnagAPIKey == "" then Getenv(env, "LOG_BUGSNAG_KEY") else given.bugsnagAPIKey)
    ensures var given := opt.GetOr(ZeroOptions);
      && (given.bugsnagEnabledEnv != [] ==> o.bugsnagEnabledEnv == given.bugsnagEnabledEnv)
      && (given.bugsnagEnabledEnv == [] ==> o.bugsnagEnabledEnv == DefaultEnabledEnv)
      && (given.bugsnagPackages != [] ==> o.bugsnagPackages == given.bugsnagPackages)
      && (given.bugsnagPackages == [] ==> o.bugsnagPackages == DefaultPackages)
    ensures o.stackTraceOffset == opt.GetOr(ZeroOptions).stackTraceOffset
  {
    var given := opt.GetOr(ZeroOptions);
    Options(
      OrElse(given.levels, DefaultHookLevels),
      given.stackTraceOffset,
      OrElse(OrElse(given.env, Getenv(env, "APP_ENV")), "local"),
      OrElse(given.appVersion, Getenv(env, "APP_VERSION")),
      OrElse(given.bugsnagAPIKey, Getenv(env, "LOG_BUGSNAG_KEY")),
      OrElse(given.bugsnagEnabledEnv, DefaultEnabledEnv),
      OrElse(given.bugsnagPackages, DefaultPackages),
      given.bugsnagCatchAll || ToBool(Getenv(env, "LOG_BUGSNAG_CATCH_ALL")))
  }

  /** Checked options are checked: a second pass changes nothing. */
  lemma CheckHookOptionsIdempotent(opt: Option<Options>, env: Env)
    ensures CheckHookOptions(Some(CheckHookOptions(opt, env)), env) == CheckHookOptions(opt, env)
  {
  }

  /** The notifier's configuration, as far as the hook sets it: bugsnag's own panic handler
      stays installed exactly when catch-all is on (otherwise a no-op handler replaces it). */
  datatype NotifierConfig = NotifierConfig(
    apiKey: string,
    releaseStage: string,
    projectPackages: seq<string>,
    appVersion: string,
    notifyReleaseStages: seq<string>,
    catchPanics: bool)

  /** The hook: its checked options, its own stack cache and its notifier's configuration. */
  datatype Hook = Hook(opt: Options, stack: Cache, notifier: NotifierConfig)

  /** `NewHook`; the stack cache starts six frames up (the extra `StackTraceOffset` the
      source passes to `stackcache.New` is not part of this model). */
  function NewHook(opt: Option<Options>, env: Env): (h: Hook)
    ensures h.opt == CheckHookOptions(opt, env)
    ensures !h.stack.offsetIsSet && h.stack.minimumCallerDepth == 6 && h.stack.breakpointPackage == SuplogPackage
    ensures h.notifier.releaseStage == h.opt.env && h.notifier.notifyReleaseStages == h.opt.bugsnagEnabledEnv
    ensures h.notifier.catchPanics <==> h.opt.bugsnagCatchAll
  {
    var o := CheckHookOptions(opt, env);
    Hook(o, New(6, SuplogPackage),
      NotifierConfig(o.bugsnagAPIKey, o.env, o.bugsnagPackages, o.appVersion, o.bugsnagEnabledEnv, o.bugsnagCatchAll))
  }

  /** `Levels`. */
  function HookLevels(h: Hook): seq<Level> {
    h.opt.levels
  }

  /** A default hook fires at warn and the levels more severe than it. */
  lemma DefaultLevels(env: Env)
    ensures forall l: Level :: l in HookLevels(NewHook(None, env)) <==> l <= WarnLevel
  {
  }

  // ---------------------------------------------------------------------------------
  // Severity

  datatype Severity = SeverityInfo | SeverityWarning | SeverityError

  /** The severity of a report at level `l`, and whether it is delivered synchronously. */
  function SeverityOf(l: Level): (Severity, bool) {
    if l == WarnLevel then (SeverityWarning, false)
    else if l == ErrorLevel then (SeverityError, false)
    else if l == FatalLevel || l == PanicLevel then (SeverityError, true)
    else (SeverityInfo, false)
  }

  /** Error severity exactly for error and the more severe levels, warning severity exactly
      for warn, info for everything else; delivery is synchronous exactly for fatal and
      panic, the levels after which the process may not survive. */
  lemma SeverityByLevel(l: Level)
    ensures SeverityOf(l).0 == SeverityError <==> l <= ErrorLevel
    ensures SeverityOf(l).0 == SeverityWarning <==> l == WarnLevel
    ensures SeverityOf(l).0 == SeverityInfo <==> l > WarnLevel
    ensures SeverityOf(l).1 <==> l <= FatalLevel
  {
  }

  // ---------------------------------------------------------------------------------
  // User identity and metadata

  /** `bugsnag.User`. */
  datatype User = User(id: string, name: string, email: string)

  /** The string under `key`, if there is one. */
  function StringField(fields: Fields, key: string): Option<string> {
    if key in fields && fields[key].Str? then Some(fields[key].s) else None
  }

  /** One step of `captureUserMeta`: a string under `key` is taken out of the fields. */
  function Take(fields: Fields, key: string): (Option<string>, Fields) {
    match StringField(fields, key)
    case Some(s) => (Some(s), fields - {key})
    case None => (None, fields)
  }

  /** `captureUserMeta`: the user record, and the fields it leaves (the Go function deletes
      the keys it takes from the entry's map). */
  function CaptureUserMeta(fields: Fields): (r: (User, Fields))
    ensures r.0.id == StringField(fields, "@user.id").GetOr("")
    ensures r.0.name == StringField(fields, "@user.name").GetOr("")
    ensures r.0.email == StringField(fields, "@user.email").GetOr("")
    ensures forall k :: k in r.1 <==> k in fields && !(k in UserKeys && fields[k].Str?)
    ensures forall k :: k in r.1 ==> r.1[k] == fields[k]
  {
    var (id, f1) := Take(fields, "@user.id");
    var (name, f2) := Take(f1, "@user.name");
    var (email, f3) := Take(f2, "@user.email");
    (User(id.GetOr(""), name.GetOr(""), email.GetOr("")), f3)
  }

  const UserKeys: set<string> := {"@user.id", "@user.name", "@user.email"}

  /** `fieldsToMetaData`: nothing for no fields; otherwise one `"Fields"` tab holding every
      field but `"blob"` and `"error"`. */
  function FieldsToMetaData(fields: Fields): (m: map<string, Fields>)
    ensures |fields| == 0 ==> m == map[]
    ensures |fields| != 0 ==> m.Keys == {"Fields"}
    ensures |fields| != 0 ==> forall k :: k in m["Fields"] <==> k in fields && k != "blob" && k != "error"
    ensures |fields| != 0 ==> forall k :: k in m["Fields"] ==> m["Fields"][k] == fields[k]
  {
    if |fields| == 0 then map[]
    else map["Fields" := map k | k in fields && k != "blob" && k != "error" :: fields[k]]
  }

  /** Fields that only hold a blob and an error still give a `"Fields"` tab, an empty one. */
  lemma OnlyBlobAndErrorGiveEmptyTab(blob: Value, err: Value)
    ensures FieldsToMetaData(map["blob" := blob, "error" := err]) == map["Fields" := map[]]
  {
    var fields := map["blob" := blob, "error" := err];
    assert "blob" in fields;
    var m := FieldsToMetaData(fields);
    assert m["Fields"] == map[];
  }

  // ---------------------------------------------------------------------------------
  // Firing

  /** The error under `"error"`, when that field holds one. */
  function ErrorField(data: Fields): Option<GoError> {
    if "error" in data && data["error"].Err? then Some(data["error"].e) else None
  }

  /** The report error takes fresh frames from the hook's stack: there is no error field,
      or its error carries neither bugsnag frames nor a pkg/errors trace that converts. */
  predicate NeedsFreshFrames(err: Option<GoError>) {
    err.None? || (err.value.frames.None? && (err.value.trace.None? || ConvertTrace(err.value.trace.value).Failure?))
  }

  /** The report frames made of runtime frames. */
  function ReportFramesOf(frames: seq<Frame>): (r: seq<ReportFrame>)
    ensures |r| == |frames|
    ensures forall i :: 0 <= i < |frames| ==> r[i] == ReportFrameOf(frames[i])
  {
    seq(|frames|, i requires 0 <= i < |frames| => ReportFrameOf(frames[i]))
  }

  /** The first half of `Fire`: the error to report. An error that already has bugsnag
      frames is reported as it is; a pkg/errors error whose trace converts gets the
      converted frames; any other error, and a message without an error, gets the frames
      the hook's stack cache finds now. The report's text is always the error's, or the
      message's when there is no error. */
  method ReportError(c: Cache, stack: seq<Frame>, err: Option<GoError>, message: string)
    returns (reported: GoError, c': Cache)
    ensures reported.message == (if err.Some? then err.value.message else message)
    ensures err.Some? && err.value.frames.Some? ==> reported == err.value
    ensures err.Some? && !NeedsFreshFrames(err) && err.value.frames.None?
      ==> reported.frames == Some(ConvertTrace(err.value.trace.value).value) && reported.trace.None?
    ensures NeedsFreshFrames(err)
      ==> reported.frames == Some(ReportFramesOf(StackFramesOf(c, stack))) && reported.trace.None?
    ensures NeedsFreshFrames(err) ==> c' == CacheAfter(c, stack)
    ensures !NeedsFreshFrames(err) ==> c' == c
  {
    c' := c;
    var wrap := false;
    if err.Some? {
      if err.value.frames.Some? {
        reported := err.value;
      } else if err.value.trace.Some? {
        var parsed := NewErrorWithPkgErrorsStackTrace(err, err.value.trace.value);
        if parsed.Failure? {
          wrap := true;
        } else {
          reported := parsed.value.value;
        }
      } else {
        wrap := true;
      }
    } else {
      wrap := true;
    }
    if wrap {
      var frames: seq<Frame>;
      frames, c' := GetStackFrames(c, stack);
      var wrapped := NewErrorWithStackFrames(Some(err.GetOr(GoError(message, None, None))), frames);
      reported := wrapped.value;
    }
  }

  /** What the hook hands to the notifier. */
  datatype Report = Report(
    err: GoError,
    sync: bool,
    severity: Severity,
    metaData: map<string, Fields>,
    user: User,
    context: Option<string>)

  /** `Fire` for an entry with `level`, `message` and fields `data`, called from `stack`:
      the report, the entry's fields afterwards (the user keys are taken out of them), the
      hook with its stack cache afterwards, and the returned error, always `nil`. */
  method Fire(h: Hook, level: Level, message: string, data: Fields, stack: seq<Frame>)
    returns (report: Report, data': Fields, h': Hook, ret: Option<string>)
    ensures ret.None?
    ensures report.err.message == (if ErrorField(data).Some? then ErrorField(data).value.message else message)
    ensures ErrorField(data).Some? && ErrorField(data).value.frames.Some? ==> report.err == ErrorField(data).value
    ensures NeedsFreshFrames(ErrorField(data))
      ==> report.err.frames == Some(ReportFramesOf(StackFramesOf(h.stack, stack)))
    ensures h' == (if NeedsFreshFrames(ErrorField(data)) then h.(stack := CacheAfter(h.stack, stack)) else h)
    ensures report.context.Some? <==> ErrorField(data).Some? && message != ""
    ensures report.context.Some? ==> report.context.value == message
    ensures (report.severity, report.sync) == SeverityOf(level)
    ensures (report.user, data') == CaptureUserMeta(data)
    ensures report.metaData == FieldsToMetaData(data')
  {
    var err := ErrorField(data);
    var reported, c' := ReportError(h.stack, stack, err, message);
    var (severity, sync) := SeverityOf(level);
    var (user, rest) := CaptureUserMeta(data);
    var context := if err.Some? && |message| > 0 then Some(message) else None;
    report := Report(reported, sync, severity, FieldsToMetaData(rest), user, context);
    data' := rest;
    h' := h.(stack := c');
    ret := None;
  }

  /** User fields never reach the metadata: a string `@user.*` field goes to the user
      record, and the metadata holds the remaining fields but `"blob"` and `"error"`. */
  lemma UserFieldsLeaveMetaData(data: Fields, k: string)
    requires k in UserKeys && k in data && data[k].Str?
    ensures var (_, rest) := CaptureUserMeta(data);
      var meta := FieldsToMetaData(rest);
      "Fields" in meta ==> k !in meta["Fields"]
  {
  }
}

=== FILE: debughook.dfy ===
/** The debug hook (hooks/debug/hook.go): stamps each entry at the debug levels with the
    caller's short function name, its source location and the application version. */
module DebugHook {
  import opened Wrappers
  import opened Text
  import opened Levels
  import opened Values
  import opened Paths
  import opened StackCache
  import opened ErrorStack

  /** `HookOptions`. */
  datatype Options = Options(appVersion: string, levels: seq<Level>, pathSegmentsLimit: int)

  /** The zero `HookOptions`, which a `nil` options pointer stands for. */
  const ZeroOptions: Options := Options("", [], 0)

  /** `checkHookOptions`: each empty or zero option takes its default. */
  function CheckHookOptions(opt: Option<Options>, env: Env): (o: Options)
    ensures var given := opt.GetOr(ZeroOptions);
      && (given.appVersion != "" ==> o.appVersion == given.appVersion)
      && (given.appVersion == "" ==> o.appVersion == Getenv(env, "APP_VERSION"))
      && (given.levels != [] ==> o.levels == given.levels)
      && (given.levels == [] ==> o.levels == [DebugLevel, TraceLevel])
      && (given.pathSegmentsLimit != 0 ==> o.pathSegmentsLimit == given.pathSegmentsLimit)
      && (given.pathSegmentsLimit == 0 ==> o.pathSegmentsLimit == 3)
  {
    var given := opt.GetOr(ZeroOptions);
    Options(
      OrElse(given.appVersion, Getenv(env, "APP_VERSION")),
      OrElse(given.levels, [DebugLevel, TraceLevel]),
      if given.pathSegmentsLimit == 0 then 3 else given.pathSegmentsLimit)
  }

  /** Checked options are checked: a second pass changes nothing. */
  lemma CheckHookOptionsIdempotent(opt: Option<Options>, env: Env)
    ensures CheckHookOptions(Some(CheckHookOptions(opt, env)), env) == CheckHookOptions(opt, env)
  {
  }

  /** The hook: its checked options and its own stack cache. */
  datatype Hook = Hook(opt: Options, stack: Cache)

  /** `NewHook`. */
  function NewHook(opt: Option<Options>, env: Env): (h: Hook)
    ensures h.opt == CheckHookOptions(opt, env)
    ensures !h.stack.offsetIsSet && h.stack.minimumCallerDepth == 6 && h.stack.breakpointPackage == SuplogPackage
  {
    Hook(CheckHookOptions(opt, env), New(6, SuplogPackage))
  }

  /** `Levels`: the levels the options name. */
  function HookLevels(h: Hook): seq<Level> {
    h.opt.levels
  }

  /** A default hook fires at the debug and trace levels only. */
  lemma DefaultLevels(env: Env)
    ensures HookLevels(NewHook(None, env)) == [DebugLevel, TraceLevel]
  {
  }

  /** The `"src"` value: the limited file path, a colon and the line. */
  function SourceText(opt: Options, caller: Frame): string {
    LimitPath(caller.file, opt.pathSegmentsLimit) + ":" + IntToString(caller.line)
  }

  /** What `Fire` does to the entry's fields, given the caller it found. */
  function Annotate(opt: Options, caller: Frame, data: Fields): (r: Fields)
    ensures caller.funcName != "" ==> "fn" in r && r["fn"] == Str(ShortName(caller.funcName))
    ensures caller.funcName == "" ==> ("fn" in r <==> "fn" in data) && ("fn" in data ==> r["fn"] == data["fn"])
    ensures "src" in r && r["src"] == Str(SourceText(opt, caller))
    ensures opt.appVersion != "" ==> "ver" in r && r["ver"] == Str(opt.appVersion)
    ensures opt.appVersion == "" ==> ("ver" in r <==> "ver" in data) && ("ver" in data ==> r["ver"] == data["ver"])
    ensures forall k :: k != "fn" && k != "src" && k != "ver" ==> (k in r <==> k in data) && (k in data ==> r[k] == data[k])
  {
    var withFn := if |caller.funcName| > 0 then data["fn" := Str(ShortName(caller.funcName))] else data;
    var withSrc := withFn["src" := Str(SourceText(opt, caller))];
    if |opt.appVersion| > 0 then withSrc["ver" := Str(opt.appVersion)] else withSrc
  }

  /** `Fire`: looks up the caller with the hook's cache, annotates the fields and reports
      no error. */
  method Fire(h: Hook, data: Fields, stack: seq<Frame>) returns (data': Fields, h': Hook, err: Option<string>)
    ensures data' == Annotate(h.opt, CallerOf(h.stack, stack), data)
    ensures h' == h.(stack := CacheAfter(h.stack, stack))
    ensures err.None?
  {
    var caller, c' := GetCaller(h.stack, stack);
    data' := Annotate(h.opt, caller, data);
    h' := h.(stack := c');
    err := None;
  }

  /** The `"fn"` value is the caller's short name: no `/` and no `.`, and the longest such
      tail of the function name. */
  lemma FnIsShortName(opt: Options, caller: Frame, data: Fields)
    requires caller.funcName != ""
    ensures var r := Annotate(opt, caller, data);
      "fn" in r && r["fn"].Str? && TailAfter(caller.funcName, r["fn"].s, {'/', '.'})
  {
    ShortNameShape(caller.funcName);
  }

  /** The `"src"` value is read back, by the rule the bugsnag hook applies to frame text, as
      the limited file path and the caller's line. */
  lemma SourceTextReadsBack(opt: Options, caller: Frame)
    requires MinInt64 <= caller.line <= MaxInt64
    ensures ParseLocation(SourceText(opt, caller)) == Success((LimitPath(caller.file, opt.pathSegmentsLimit), caller.line))
  {
    ParseLocationOfPrinted(LimitPath(caller.file, opt.pathSegmentsLimit), caller.line);
  }
}

=== FILE: errorstack.dfy ===
/** The bugsnag hook's error wrappers (hooks/bugsnag/errorstack.go): a Go error paired with
    report frames, built either from runtime frames or by parsing the text of a pkg/errors
    stack trace. */
module ErrorStack {
  import opened Wrappers
  import opened Text
  import opened Values
  import opened Paths
  import opened StackCache

  /** The number of path segments a report keeps of each source file. */
  const ReportPathSegments: int := 3

  /** The report frame `newErrorWithStackFrames` makes of one runtime frame. */
  function ReportFrameOf(f: Frame): ReportFrame {
    ReportFrame(LimitPath(f.file, ReportPathSegments), f.line, f.funcName, PackageName(f.funcName), f.pc)
  }

  /** `newErrorWithStackFrames`: no error gives no error; otherwise an error with the same
      `Error()` text, one report frame per runtime frame in order, and no pkg/errors
      trace of its own. */
  function NewErrorWithStackFrames(err: Option<GoError>, frames: seq<Frame>): (r: Option<GoError>)
    ensures r.None? <==> err.None?
    ensures r.Some? ==> r.value.message == err.value.message && r.value.trace.None? && r.value.frames.Some?
    ensures r.Some? ==> |r.value.frames.value| == |frames|
    ensures r.Some? ==> forall i :: 0 <= i < |frames| ==> r.value.frames.value[i] == ReportFrameOf(frames[i])
  {
    if err.None? then None
    else Some(GoError(err.value.message, Some(seq(|frames|, i requires 0 <= i < |frames| => ReportFrameOf(frames[i]))), None))
  }

  /** Every report frame names its function, keeps at most three segments of its file, and
      gives as package a prefix of the function name cut only at a `.`. */
  lemma ReportFrameShape(f: Frame)
    ensures var r := ReportFrameOf(f);
      && r.name == f.funcName && r.lineNumber == f.line && r.pc == f.pc
      && |Segments(r.file)| <= ReportPathSegments
      && r.package <= r.name
      && (|r.package| == |r.name| || r.name[|r.package|] == '.')
  {
    LimitPathSegments(f.file, ReportPathSegments);
    PackageNameShape(f.funcName);
  }

  // ---------------------------------------------------------------------------------
  // Parsing pkg/errors frame text

  /** What one line of pkg/errors frame text says. */
  datatype FrameText = FrameText(fnName: string, file: string, line: int)

  /** The `"<file>:<line>"` half of a frame text: the file is everything before the last
      `:`, and what follows it must be a non-empty `strconv.Atoi` number. */
  function ParseLocation(loc: string): Result<(string, int)> {
    var lineNumIdx := LastIndex(loc, ':');
    if lineNumIdx < 0 || lineNumIdx + 1 >= |loc| then
      Failure("frame text partial read: no file line delim in " + loc)
    else
      var n := Atoi(loc[lineNumIdx + 1..]);
      if n.None? then Failure("failed to parse line num " + AtoiError(loc[lineNumIdx + 1..]))
      else Success((loc[..lineNumIdx], n.value))
  }

  /** A location that parses is its file, a `:`, and a `:`-free number that reads as its
      line. */
  lemma ParseLocationShape(loc: string)
    requires ParseLocation(loc).Success?
    ensures var (file, line) := ParseLocation(loc).value;
      && |file| < |loc| && loc[..|file|] == file && loc[|file|] == ':'
      && ':' !in loc[|file| + 1..]
      && Atoi(loc[|file| + 1..]) == Some(line)
  {
    LastIndexIsLast(loc, ':');
  }

  /** The text of one pkg/errors frame, `"<function> <file>:<line>"`: exactly one space,
      then a location. */
  function ParseFrameText(text: string): Result<FrameText> {
    var parts := Split(text, ' ');
    if |parts| != 2 then Failure("frame text partial read: not enough parts")
    else
      match ParseLocation(parts[1])
      case Failure(e) => Failure(e)
      case Success(loc) => Success(FrameText(parts[0], loc.0, loc.1))
  }

  /** A frame text that parses is a space-free function name, one space, and a location
      that parses to the file and line read. */
  lemma ParseFrameTextShape(text: string)
    requires ParseFrameText(text).Success?
    ensures |ParseFrameText(text).value.fnName| < |text|
    ensures var ft := ParseFrameText(text).value;
      var loc := text[|ft.fnName| + 1..];
      && text == ft.fnName + " " + loc
      && ' ' !in ft.fnName && ' ' !in loc
      && ParseLocation(loc) == Success((ft.file, ft.line))
  {
    TwoPieces(text, ' ');
  }

  /** A string that splits into two pieces is the first, the separator, then the second. */
  lemma TwoPieces(s: string, c: char)
    requires |Split(s, c)| == 2
    ensures var parts := Split(s, c);
      && s == parts[0] + [c] + parts[1]
      && c !in parts[0] && c !in parts[1]
  {
    var parts := Split(s, c);
    JoinSplit(s, c);
    assert parts[..1] == [parts[0]];
    SplitPiecesAreClean(s, c);
  }

  /** A frame text is read back as the function, file and line it was printed from, for
      every function name and file name without a space and every `int64` line. */
  lemma ParseFrameTextOfPrinted(fnName: string, file: string, line: int)
    requires ' ' !in fnName && ' ' !in file
    requires MinInt64 <= line <= MaxInt64
    ensures ParseFrameText(fnName + " " + file + ":" + IntToString(line)) == Success(FrameText(fnName, file, line))
  {
    var loc := file + ":" + IntToString(line);
    assert fnName + " " + file + ":" + IntToString(line) == fnName + " " + loc;
    assert ' ' !in loc;
    ParseLocationOfPrinted(file, line);
    ParseFrameTextSplits(fnName, loc);
  }

  /** A function name and a location, both without spaces, are split at the one space. */
  lemma ParseFrameTextSplits(fnName: string, loc: string)
    requires ' ' !in fnName && ' ' !in loc && ParseLocation(loc).Success?
    ensures ParseFrameText(fnName + " " + loc) == Success(FrameText(fnName, ParseLocation(loc).value.0, ParseLocation(loc).value.1))
  {
    SplitJoin([fnName, loc], ' ');
    JoinTwo(fnName, loc, ' ');
  }

  /** The location half reads back the file and line it was printed from. */
  lemma ParseLocationOfPrinted(file: string, line: int)
    requires MinInt64 <= line <= MaxInt64
    ensures ParseLocation(file + ":" + IntToString(line)) == Success((file, line))
  {
    var digits := IntToString(line);
    var loc := file + ":" + digits;
    assert ':' !in digits;
    assert forall k :: |file| < k < |loc| ==> loc[k] == digits[k - |file| - 1];
    LastIndexAt(loc, ':', |file|);
    assert loc[|file| + 1..] == digits;
    assert loc[..|file|] == file;
    AtoiOfIntToString(line);
  }

  /** Frame text without a space, such as the `"unknown"` pkg/errors prints for a frame
      it cannot resolve, is rejected. */
  lemma ParseFrameTextNeedsSpace(text: string)
    requires ' ' !in text
    ensures ParseFrameText(text) == Failure("frame text partial read: not enough parts")
  {
    SplitSingle(text, ' ');
  }

  /** A location without a `:`, or with nothing after its last `:`, is rejected. */
  lemma ParseLocationNeedsLine(loc: string)
    requires ':' !in loc || (|loc| > 0 && loc[|loc| - 1] == ':')
    ensures ParseLocation(loc) == Failure("frame text partial read: no file line delim in " + loc)
  {
    if ':' !in loc {
      LastIndexAt(loc, ':', -1);
    }
  }

  // ---------------------------------------------------------------------------------
  // Converting a whole trace

  /** The report frame for one pkg/errors frame, or the error that stops the conversion. */
  function FrameOfTrace(t: TraceFrame): Result<ReportFrame> {
    match t.text
    case Failure(e) => Failure(e)
    case Success(text) =>
      match ParseFrameText(text)
      case Failure(e) => Failure(e)
      case Success(ft) => Success(ReportFrame(LimitPath(ft.file, ReportPathSegments), ft.line, ft.fnName, PackageName(ft.fnName), t.pc))
  }

  /** The conversion of a sequence, element by element in order: the first failing
      element's error, or every element converted. */
  function ConvertAll<A, B>(xs: seq<A>, conv: A -> Result<B>): Result<seq<B>>
    decreases |xs|
  {
    if |xs| == 0 then Success([])
    else
      match ConvertAll(xs[..|xs| - 1], conv)
      case Failure(e) => Failure(e)
      case Success(ys) =>
        match conv(Last(xs))
        case Failure(e) => Failure(e)
        case Success(y) => Success(ys + [y])
  }

  /** All or nothing: the conversion succeeds exactly when every element converts. */
  lemma {:induction false} ConvertAllSucceeds<A, B>(xs: seq<A>, conv: A -> Result<B>)
    ensures ConvertAll(xs, conv).Success? <==> forall i :: 0 <= i < |xs| ==> conv(xs[i]).Success?
    decreases |xs|
  {
    if |xs| > 0 {
      var front := xs[..|xs| - 1];
      ConvertAllSucceeds(front, conv);
      assert forall i :: 0 <= i < |front| ==> front[i] == xs[i];
    }
  }

  /** A successful conversion holds one result per element, in order. */
  lemma {:induction false} ConvertAllElements<A, B>(xs: seq<A>, conv: A -> Result<B>)
    requires ConvertAll(xs, conv).Success?
    ensures |ConvertAll(xs, conv).value| == |xs|
    ensures forall i :: 0 <= i < |xs| ==> conv(xs[i]) == Success(ConvertAll(xs, conv).value[i])
    decreases |xs|
  {
    if |xs| > 0 {
      var front := xs[..|xs| - 1];
      ConvertAllElements(front, conv);
      assert forall i :: 0 <= i < |front| ==> front[i] == xs[i];
    }
  }

  /** The first failing element decides the error: once a prefix fails, so does the whole. */
  lemma {:induction false} ConvertAllFailureSticks<A, B>(xs: seq<A>, conv: A -> Result<B>, n: nat)
    requires n <= |xs| && ConvertAll(xs[..n], conv).Failure?
    ensures ConvertAll(xs, conv) == ConvertAll(xs[..n], conv)
    decreases |xs| - n
  {
    if n < |xs| {
      assert xs[..n + 1][..n] == xs[..n];
      ConvertAllFailureSticks(xs, conv, n + 1);
    } else {
      assert xs[..n] == xs;
    }
  }

  /** The conversion of a whole pkg/errors trace. */
  function ConvertTrace(trace: seq<TraceFrame>): Result<seq<ReportFrame>> {
    ConvertAll(trace, FrameOfTrace)
  }

  /** `newErrorWithPkgErrorsStackTrace`: no error gives `(nil, nil)`; otherwise the frames
      of the trace are converted one by one, and the first one that fails makes the whole
      result that frame's error. */
  method NewErrorWithPkgErrorsStackTrace(err: Option<GoError>, trace: seq<TraceFrame>) returns (r: Result<Option<GoError>>)
    ensures err.None? ==> r == Success(None)
    ensures err.Some? ==> (r.Success? <==> ConvertTrace(trace).Success?)
    ensures err.Some? && r.Failure? ==> r.error == ConvertTrace(trace).error
    ensures err.Some? && r.Success? ==> r.value == Some(GoError(err.value.message, Some(ConvertTrace(trace).value), None))
  {
    if err.None? {
      return Success(None);
    }
    var frames: seq<ReportFrame> := [];
    var i := 0;
    while i < |trace|
      invariant i <= |trace|
      invariant ConvertAll(trace[..i], FrameOfTrace) == Success(frames)
    {
      var f := FrameOfTrace(trace[i]);
      assert trace[..i + 1][..i] == trace[..i];
      if f.Failure? {
        ConvertAllFailureSticks(trace, FrameOfTrace, i + 1);
        return Failure(f.error);
      }
      frames := frames + [f.value];
      i := i + 1;
    }
    assert trace[..i] == trace;
    r := Success(Some(GoError(err.value.message, Some(frames), None)));
  }
}

=== FILE: fieldmaps.dfy ===
/** The field-map helpers of fields.go. Go maps are mutable references; here every
    helper returns a new map, which is what the helpers promise their callers anyway
    (none of them writes to a map it was given). */
module FieldMaps {
  import opened Wrappers
  import opened Values

  /** `copyFields`: a fresh map with the same entries, built one key at a time. */
  method CopyFields(fields: Fields) returns (ff: Fields)
    ensures ff == fields
  {
    ff := map[];
    var todo := fields.Keys;
    while todo != {}
      invariant todo <= fields.Keys
      invariant ff.Keys == fields.Keys - todo
      invariant forall k :: k in ff ==> ff[k] == fields[k]
      decreases todo
    {
      var k :| k in todo;
      ff := ff[k := fields[k]];
      todo := todo - {k};
    }
  }

  /** `WithMore`: a copy of `fields` with every entry of `add` written over it, which is
      the right-biased map union. */
  method WithMore(fields: Fields, add: Fields) returns (r: Fields)
    ensures r.Keys == fields.Keys + add.Keys
    ensures forall k :: k in add ==> r[k] == add[k]
    ensures forall k :: k in fields && k !in add ==> r[k] == fields[k]
    ensures r == fields + add
  {
    r := CopyFields(fields);
    var todo := add.Keys;
    while todo != {}
      invariant todo <= add.Keys
      invariant r.Keys == fields.Keys + (add.Keys - todo)
      invariant forall k :: k in add && k !in todo ==> r[k] == add[k]
      invariant forall k :: k in fields && k !in add ==> r[k] == fields[k]
      invariant forall k :: k in fields && k in todo ==> r[k] == fields[k]
      decreases todo
    {
      var k :| k in todo;
      r := r[k := add[k]];
      todo := todo - {k};
    }
  }

  /** `WithFn(fields...)` for a caller named `callerName`: a `nil` map is `None`. With a
      non-nil first map, a copy of it with "fn" set; otherwise a map holding only "fn". */
  method WithFn(fields: seq<Option<Fields>>, callerName: string) returns (r: Fields)
    ensures "fn" in r && r["fn"] == Str(callerName)
    ensures |fields| > 0 && fields[0].Some? ==> r.Keys == fields[0].value.Keys + {"fn"}
    ensures |fields| > 0 && fields[0].Some? ==>
      forall k :: k in fields[0].value && k != "fn" ==> r[k] == fields[0].value[k]
    ensures !(|fields| > 0 && fields[0].Some?) ==> r.Keys == {"fn"}
  {
    if |fields| > 0 && fields[0].Some? {
      r := CopyFields(fields[0].value);
      r := r["fn" := Str(callerName)];
    } else {
      r := map["fn" := Str(callerName)];
    }
  }
}

=== FILE: levels.dfy ===
/** Severity levels and their parser (const.go). */
module Levels {
  import opened Wrappers
  import opened Text

  /** A logging level is a `uint32`; the seven named levels are 0..6, most severe first. */
  newtype Level = x: int | 0 <= x < 0x1_0000_0000

  const PanicLevel: Level := 0
  const FatalLevel: Level := 1
  const ErrorLevel: Level := 2
  const WarnLevel: Level := 3
  const InfoLevel: Level := 4
  const DebugLevel: Level := 5
  const TraceLevel: Level := 6

  /** Every named level, in declaration order. */
  const AllLevels: seq<Level> := [PanicLevel, FatalLevel, ErrorLevel, WarnLevel, InfoLevel, DebugLevel, TraceLevel]

  /** One of the seven named levels. */
  predicate Named(l: Level) {
    l <= TraceLevel
  }

  /** The named levels are exactly the integers 0..6, listed once each in increasing order. */
  lemma AllLevelsAreZeroToSix()
    ensures |AllLevels| == 7
    ensures forall i :: 0 <= i < |AllLevels| ==> AllLevels[i] as int == i
    ensures forall l: Level :: l in AllLevels <==> Named(l)
  {
    forall l: Level | Named(l)
      ensures l in AllLevels
    {
      assert AllLevels[l as int] == l;
    }
  }

  /** The outcome of `ParseLevel`: Go's `(level Level, err error)` pair. */
  datatype Parsed = Parsed(level: Level, err: Option<string>)

  /** The lower-case names `ParseLevel` recognises. */
  const LevelNames: set<string> := {"panic", "fatal", "error", "warn", "warning", "info", "debug", "trace"}

  /** A canonical lower-case name for each named level (warn's long form). */
  function LevelName(l: Level): string
    requires Named(l)
  {
    if l == PanicLevel then "panic"
    else if l == FatalLevel then "fatal"
    else if l == ErrorLevel then "error"
    else if l == WarnLevel then "warning"
    else if l == InfoLevel then "info"
    else if l == DebugLevel then "debug"
    else "trace"
  }

  /** The canonical names are already lower case. */
  lemma LevelNameIsLowerCase(l: Level)
    requires Named(l)
    ensures ToLower(LevelName(l)) == LevelName(l)
  {
  }

  /** `ParseLevel`: matches the lower-cased name against the level names; anything else is
      an error together with the zero level. */
  function ParseLevel(levelName: string): (p: Parsed)
    ensures p.err.None? <==> ToLower(levelName) in LevelNames
    ensures p.err.None? ==> Named(p.level)
    ensures p.err.None? ==> ToLower(levelName) == LevelName(p.level) || (ToLower(levelName) == "warn" && p.level == WarnLevel)
    ensures p.err.Some? ==> p.level == PanicLevel && p.err.value == "not a valid output Level: " + levelName
  {
    var name := ToLower(levelName);
    if name == "panic" then Parsed(PanicLevel, None)
    else if name == "fatal" then Parsed(FatalLevel, None)
    else if name == "error" then Parsed(ErrorLevel, None)
    else if name == "warn" || name == "warning" then Parsed(WarnLevel, None)
    else if name == "info" then Parsed(InfoLevel, None)
    else if name == "debug" then Parsed(DebugLevel, None)
    else if name == "trace" then Parsed(TraceLevel, None)
    else Parsed(PanicLevel, Some("not a valid output Level: " + levelName))
  }

  /** Names that differ only in the case of ASCII letters parse to the same level, and
      either both parse or both fail. */
  lemma ParseLevelIgnoresCase(a: string, b: string)
    requires ToLower(a) == ToLower(b)
    ensures ParseLevel(a).level == ParseLevel(b).level
    ensures ParseLevel(a).err.None? <==> ParseLevel(b).err.None?
  {
  }

  /** Every named level parses back from its name, in lower or any other case. */
  lemma ParseLevelName(l: Level, spelled: string)
    requires Named(l)
    requires ToLower(spelled) == LevelName(l)
    ensures ParseLevel(spelled) == Parsed(l, None)
  {
  }

  /** "warn" and "warning" are the same level, whatever their case. */
  lemma WarnAndWarningAgree()
    ensures ParseLevel("warn") == Parsed(WarnLevel, None)
    ensures ParseLevel("warning") == Parsed(WarnLevel, None)
    ensures ParseLevel("WARNING") == Parsed(WarnLevel, None)
    ensures ParseLevel("Warn") == Parsed(WarnLevel, None)
  {
    assert ToLower("WARNING") == "warning";
    assert ToLower("Warn") == "warn";
  }

  /** The unknown name "bogus" fails with the zero level. */
  lemma BogusFails()
    ensures ParseLevel("bogus").err.Some?
    ensures ParseLevel("bogus").level == PanicLevel
  {
    assert ToLower("bogus") == "bogus";
  }
}

=== FILE: paths.dfy ===
/** `limitPath`, which the debug hook and the bugsnag hook each define identically, and
    the part of `filepath.Join` it relies on, on a system whose separator is `/`. */
module Paths {
  import opened Text

  /** `filepath.Join`: the non-empty elements joined by `/`, or "" when there are none.
      (Go's `Clean`, which `filepath.Join` also applies, is not modelled: `.` and `..` are
      not resolved, repeated separators are not merged and a trailing one is not dropped.) */
  function JoinPath(parts: seq<string>): string {
    var kept := NonEmpty(parts);
    if |kept| == 0 then "" else Join(kept, '/')
  }

  /** The `/`-separated segments of a path, with no segment for the empty path. */
  function Segments(p: string): seq<string> {
    if p == "" then [] else Split(p, '/')
  }

  /** The last `n` elements of `xs`, or all of them when there are fewer. */
  function LastN<T>(xs: seq<T>, n: nat): (r: seq<T>)
    ensures |r| == if |xs| > n then n else |xs|
    ensures r == xs[|xs| - |r|..]
  {
    if |xs| > n then xs[|xs| - n..] else xs
  }

  /** `limitPath`: a non-positive limit leaves the path alone; otherwise only the last `n`
      `/`-separated pieces are kept and re-joined. */
  function LimitPath(path: string, n: int): (r: string)
    ensures n <= 0 ==> r == path
  {
    if n <= 0 then path else JoinPath(LastN(Split(path, '/'), n))
  }

  /** With a positive limit, the result's segments are exactly the non-empty ones among the
      last `n` pieces of the path, in order. */
  lemma LimitPathSegments(path: string, n: int)
    requires n > 0
    ensures Segments(LimitPath(path, n)) == NonEmpty(LastN(Split(path, '/'), n))
    ensures |Segments(LimitPath(path, n))| <= n
  {
    var tail := LastN(Split(path, '/'), n);
    var kept := NonEmpty(tail);
    SplitPiecesAreClean(path, '/');
    if |kept| > 0 {
      SplitJoin(kept, '/');
    }
  }

  /** Limiting an already limited path changes nothing. */
  lemma LimitPathIdempotent(path: string, n: int)
    ensures LimitPath(LimitPath(path, n), n) == LimitPath(path, n)
  {
    if n > 0 {
      var r := LimitPath(path, n);
      LimitPathSegments(path, n);
      var kept := Segments(r);
      if r == "" {
        SplitSingle("", '/');
      } else {
        NonEmptyOfNonEmpty(kept);
        assert Split(r, '/') == kept;
        JoinSplit(r, '/');
      }
    }
  }

  /** Keeping the non-empty elements of a sequence without empty elements keeps them all. */
  lemma {:induction false} NonEmptyOfNonEmpty(xs: seq<string>)
    requires forall i :: 0 <= i < |xs| ==> xs[i] != []
    ensures NonEmpty(xs) == xs
  {
    if |xs| > 0 {
      NonEmptyOfNonEmpty(xs[1..]);
    }
  }

  /** A path whose last `n` segments are non-empty is cut down to exactly those `n`
      segments, whatever precedes them (the documented example keeps
      `xlab/suplog/default_test.go` of a longer absolute path with a limit of 3). */
  lemma LimitPathKeepsLast(front: seq<string>, last: seq<string>, n: int)
    requires n > 0 && |last| == n
    requires forall i :: 0 <= i < |front| ==> '/' !in front[i]
    requires forall i :: 0 <= i < |last| ==> '/' !in last[i] && last[i] != []
    ensures LimitPath(Join(front + last, '/'), n) == Join(last, '/')
  {
    var pieces := front + last;
    assert forall i :: 0 <= i < |pieces| ==> '/' !in pieces[i];
    SplitJoin(pieces, '/');
    assert LastN(pieces, n) == last;
    NonEmptyOfNonEmpty(last);
  }
}

=== FILE: stackcache.dfy ===
/** The stack-frame resolver (stackcache/stackcache.go).

    `runtime.Callers` is an oracle: the call stack at the moment of the call is an input
    `stack`, indexed the way `runtime.Callers` counts its `skip` argument, and a call
    captures at most `maximumCallerDepth` frames of it starting at `minimumCallerDepth`.
    The `sync.Once` guarding the offset cache and the `offsetIsSet` flag are one boolean:
    `Do` is only reached while the flag is false and its callback sets the flag, so in a
    sequential run the callback fires exactly when the flag goes from false to true. */
module StackCache {
  import opened Text

  /** A `runtime.Frame`: the fields the resolver and its users read. */
  datatype Frame = Frame(funcName: string, file: string, line: int, pc: int)

  /** The zero `runtime.Frame`, returned when nothing was examined. */
  const ZeroFrame: Frame := Frame("", "", 0, 0)

  /** The package of `testing.tRunner`. */
  const TestingPackage: string := "testing"

  const MaximumCallerDepth: nat := 25

  /** The module path of the logging library, the breakpoint package every cache of the
      library and of its hooks is given. */
  const SuplogPackage: string := "github.com/xlab/suplog"

  /** A `stackCache`. The offset cache is folded into `minimumCallerDepth`. */
  datatype Cache = Cache(
    breakpointPackage: string,
    minimumCallerDepth: nat,
    maximumCallerDepth: nat,
    offsetIsSet: bool)

  /** `New`: a cache that starts scanning at `pcOffset` and has not located its boundary. */
  function New(pcOffset: nat, breakpointPackage: string): Cache {
    Cache(breakpointPackage, pcOffset, MaximumCallerDepth, false)
  }

  // ---------------------------------------------------------------------------------
  // Package names

  /** `GetPackageName`: strips the last `.`-suffix for as long as the last `.` comes after
      the last `/`. */
  function PackageName(path: string): string
    decreases |path|
  {
    var lastPeriod := LastIndex(path, '.');
    var lastSlash := LastIndex(path, '/');
    if lastPeriod > lastSlash then PackageName(path[..lastPeriod]) else path
  }

  /** The package name is a prefix of the path, cut only at a `.`; the cut lies after the
      last `/`, and no `.` lies between that `/` and the cut. */
  lemma {:induction false} PackageNameShape(path: string)
    ensures PackageName(path) <= path
    ensures |PackageName(path)| == |path| || path[|PackageName(path)|] == '.'
    ensures LastIndex(path, '/') < |PackageName(path)|
    ensures forall i :: LastIndex(path, '/') < i < |PackageName(path)| ==> path[i] != '.'
    decreases |path|
  {
    var lastPeriod := LastIndex(path, '.');
    var lastSlash := LastIndex(path, '/');
    LastIndexIsLast(path, '.');
    if lastPeriod > lastSlash {
      var front := path[..lastPeriod];
      LastIndexOfPrefix(path, '/', lastPeriod);
      PackageNameShape(front);
      assert PackageName(path) == PackageName(front);
    }
  }

  /** The package name is cut at the first `.` after the last `/`. */
  lemma PackageNameCutsAtFirstDot(path: string)
    ensures PackageName(path) == path[..FirstIndexFrom(path, '.', LastIndex(path, '/') + 1)]
  {
    PackageNameShape(path);
    var r := PackageName(path);
    FirstIndexFromAt(path, '.', LastIndex(path, '/') + 1, |r|);
    assert r == path[..|r|];
  }

  /** Without any `/`, everything from the first `.` on is removed. */
  lemma PackageNameWithoutSlash(path: string)
    requires '/' !in path
    ensures PackageName(path) == path[..FirstIndexFrom(path, '.', 0)]
    ensures '.' !in PackageName(path)
  {
    PackageNameCutsAtFirstDot(path);
  }

  /** A path is its own package name exactly when no `.` follows its last `/`. */
  lemma PackageNameFixedPoint(path: string)
    ensures PackageName(path) == path <==> LastIndex(path, '.') <= LastIndex(path, '/')
  {
    PackageNameShape(path);
  }

  /** The package name has no `.` after its own last `/`, so reducing it again changes nothing. */
  lemma PackageNameIdempotent(path: string)
    ensures LastIndex(PackageName(path), '.') <= LastIndex(PackageName(path), '/')
    ensures PackageName(PackageName(path)) == PackageName(path)
  {
    PackageNameShape(path);
    var r := PackageName(path);
    LastIndexOfPrefix(path, '/', |r|);
    assert r == path[..|r|];
    PackageNameFixedPoint(r);
  }

  /** The last `.`-segment of the last `/`-segment of a function name: what `CallerName`
      and the debug hook report. */
  function ShortName(funcName: string): string {
    var lastPart := Last(Split(funcName, '/'));
    Last(Split(lastPart, '.'))
  }

  /** The short name is the longest suffix of the function name without `/` or `.`. */
  lemma ShortNameShape(funcName: string)
    ensures TailAfter(funcName, ShortName(funcName), {'/', '.'})
  {
    var lastPart := Last(Split(funcName, '/'));
    LastPieceShape(funcName, '/');
    LastPieceShape(lastPart, '.');
    TailAfterBoth(funcName, lastPart, ShortName(funcName), '/', '.');
  }

  /** The function `name` of package `pkg`, spelled `pkg.name` as the runtime spells it,
      belongs to `pkg` when no `.` follows the package's last `/`. */
  lemma PackageNameOfQualified(pkg: string, name: string)
    requires LastIndex(pkg, '.') <= LastIndex(pkg, '/')
    requires '.' !in name && '/' !in name
    ensures PackageName(pkg + "." + name) == pkg
  {
    var path := pkg + "." + name;
    LastIndexIsLast(pkg, '/');
    assert forall k :: |pkg| < k < |path| ==> path[k] == name[k - |pkg| - 1];
    LastIndexAt(path, '.', |pkg|);
    LastIndexAt(path, '/', LastIndex(pkg, '/'));
    assert path[..|pkg|] == pkg;
    PackageNameFixedPoint(pkg);
  }

  /** The library's module path is a package name: no `.` follows its last `/`. */
  lemma SuplogPackageIsAPackage()
    ensures LastIndex(SuplogPackage, '.') <= LastIndex(SuplogPackage, '/')
  {
    LastIndexAt(SuplogPackage, '/', 15);
    LastIndexAt(SuplogPackage, '.', 6);
  }

  /** The short name of `pkg.name` is `name`, for a `name` without `.` or `/`. */
  lemma ShortNameOfQualified(pkg: string, name: string)
    requires '.' !in name && '/' !in name
    ensures ShortName(pkg + "." + name) == name
  {
    ShortNameShape(pkg + "." + name);
    TailAfterSeparator(pkg, '.', name, ShortName(pkg + "." + name), {'/', '.'});
  }

  // ---------------------------------------------------------------------------------
  // The frames one call examines

  /** The package a frame belongs to. */
  function Pkg(f: Frame): string {
    PackageName(f.funcName)
  }

  function Min(a: int, b: int): int {
    if a < b then a else b
  }

  /** The frames `runtime.Callers(minimumCallerDepth, pcs)` captures into a buffer of
      `maximumCallerDepth` entries. */
  function Captured(c: Cache, stack: seq<Frame>): (fs: seq<Frame>)
    ensures |fs| <= c.maximumCallerDepth
    ensures forall i :: 0 <= i < |fs| ==> c.minimumCallerDepth + i < |stack| && fs[i] == stack[c.minimumCallerDepth + i]
    ensures |fs| == Min(c.maximumCallerDepth, |stack| - c.minimumCallerDepth) || (|fs| == 0 && c.minimumCallerDepth >= |stack|)
  {
    if c.minimumCallerDepth >= |stack| then []
    else stack[c.minimumCallerDepth..Min(c.minimumCallerDepth + c.maximumCallerDepth, |stack|)]
  }

  /** Every frame but the last. */
  function Front(frames: seq<Frame>): (ex: seq<Frame>)
    ensures |ex| == if |frames| == 0 then 0 else |frames| - 1
    ensures forall t :: 0 <= t < |ex| ==> ex[t] == frames[t]
  {
    if |frames| == 0 then [] else frames[..|frames| - 1]
  }

  /** The frames the scanning loops look at: `frames.Next()` reports whether more frames
      follow the one it returns, and the loops stop on that flag, so the last captured
      frame is never examined. */
  function Examined(c: Cache, stack: seq<Frame>): seq<Frame> {
    Front(Captured(c, stack))
  }

  // The scans below are stated for any assignment `pkgOf` of packages to frames; the
  // resolver uses `Pkg`.

  /** The first index at or after `from` whose frame is in package `bp`, or `|ex|`. */
  function FirstIn(ex: seq<Frame>, pkgOf: Frame -> string, bp: string, from: nat): (k: nat)
    requires from <= |ex|
    ensures from <= k <= |ex|
    ensures k < |ex| ==> pkgOf(ex[k]) == bp
    ensures forall t :: from <= t < k ==> pkgOf(ex[t]) != bp
    decreases |ex| - from
  {
    if from == |ex| then |ex|
    else if pkgOf(ex[from]) == bp then from
    else FirstIn(ex, pkgOf, bp, from + 1)
  }

  /** The first index at or after `from` whose frame is outside package `bp`, or `|ex|`. */
  function FirstOut(ex: seq<Frame>, pkgOf: Frame -> string, bp: string, from: nat): (j: nat)
    requires from <= |ex|
    ensures from <= j <= |ex|
    ensures j < |ex| ==> pkgOf(ex[j]) != bp
    ensures forall t :: from <= t < j ==> pkgOf(ex[t]) == bp
    decreases |ex| - from
  {
    if from == |ex| then |ex|
    else if pkgOf(ex[from]) != bp then from
    else FirstOut(ex, pkgOf, bp, from + 1)
  }

  /** `FirstOut` is determined by its characterisation. */
  lemma {:induction false} FirstOutAt(ex: seq<Frame>, pkgOf: Frame -> string, bp: string, from: nat, j: nat)
    requires from <= j < |ex|
    requires forall t :: from <= t < j ==> pkgOf(ex[t]) == bp
    requires pkgOf(ex[j]) != bp
    ensures FirstOut(ex, pkgOf, bp, from) == j
    decreases j - from
  {
    if from < j {
      FirstOutAt(ex, pkgOf, bp, from + 1, j);
    }
  }

  /** Where the post-boundary part of the scan starts: at once when the offset is already
      set, else just after the first breakpoint-package frame (nowhere if there is none). */
  function ScanStart(c: Cache, ex: seq<Frame>, pkgOf: Frame -> string): (s: nat)
    ensures s <= |ex|
  {
    if c.offsetIsSet then 0
    else
      var k := FirstIn(ex, pkgOf, c.breakpointPackage, 0);
      if k < |ex| then k + 1 else |ex|
  }

  /** The cache after scanning `ex`: the first breakpoint-package frame ever examined moves
      the minimum depth past the frames scanned before it and sets the flag; nothing else
      changes it. */
  function Located(c: Cache, ex: seq<Frame>, pkgOf: Frame -> string): Cache {
    var k := FirstIn(ex, pkgOf, c.breakpointPackage, 0);
    if c.offsetIsSet || k == |ex| then c
    else c.(minimumCallerDepth := c.minimumCallerDepth + k, offsetIsSet := true)
  }

  /** The frame scanned just before index `j`, or the zero frame at the start. */
  function PrevFrame(ex: seq<Frame>, j: nat): Frame
    requires j <= |ex|
  {
    if j == 0 then ZeroFrame else ex[j - 1]
  }

  /** The package of the frame scanned just before index `j`, or "" at the start. */
  function PrevPkg(ex: seq<Frame>, pkgOf: Frame -> string, j: nat): string
    requires j <= |ex|
  {
    if j == 0 then "" else pkgOf(ex[j - 1])
  }

  /** The caller found among the examined frames `ex`: the first post-boundary frame outside
      the breakpoint package, or the frame before it when that frame is the test runner's;
      when there is none, the last examined frame (the zero frame if nothing was examined). */
  function CallerAmong(c: Cache, ex: seq<Frame>, pkgOf: Frame -> string): Frame {
    var j := FirstOut(ex, pkgOf, c.breakpointPackage, ScanStart(c, ex, pkgOf));
    if j == |ex| then PrevFrame(ex, |ex|)
    else if pkgOf(ex[j]) == TestingPackage then PrevFrame(ex, j)
    else ex[j]
  }

  /** What examined frame `j` adds to `GetStackFrames`'s result in the post-boundary part. */
  function Contribution(ex: seq<Frame>, pkgOf: Frame -> string, bp: string, j: nat): seq<Frame>
    requires j < |ex|
  {
    if pkgOf(ex[j]) == bp then []
    else if pkgOf(ex[j]) == TestingPackage && PrevPkg(ex, pkgOf, j) == bp then [PrevFrame(ex, j), ex[j]]
    else [ex[j]]
  }

  /** The contributions of examined frames `s .. e-1`, in scan order. */
  function Useful(ex: seq<Frame>, pkgOf: Frame -> string, bp: string, s: nat, e: nat): seq<Frame>
    requires s <= e <= |ex|
    decreases e
  {
    if e == s then [] else Useful(ex, pkgOf, bp, s, e - 1) + Contribution(ex, pkgOf, bp, e - 1)
  }

  /** The frames the `GetStackFrames` loop reports for the examined frames `ex`. */
  function UsefulAmong(c: Cache, ex: seq<Frame>, pkgOf: Frame -> string): seq<Frame> {
    Useful(ex, pkgOf, c.breakpointPackage, ScanStart(c, ex, pkgOf), |ex|)
  }

  /** The cache after one call that scans `stack`. */
  function CacheAfter(c: Cache, stack: seq<Frame>): Cache {
    Located(c, Examined(c, stack), Pkg)
  }

  /** The caller `GetCaller` reports for `stack`. */
  function CallerOf(c: Cache, stack: seq<Frame>): Frame {
    CallerAmong(c, Examined(c, stack), Pkg)
  }

  /** The frames `GetStackFrames` reports for `stack`. */
  function StackFramesOf(c: Cache, stack: seq<Frame>): seq<Frame> {
    UsefulAmong(c, Examined(c, stack), Pkg)
  }

  // ---------------------------------------------------------------------------------
  // The two scans, as the loops are written

  lemma CallerIsBeforeTesting(c: Cache, ex: seq<Frame>, pkgOf: Frame -> string, i: nat)
    requires i < |ex| && ScanStart(c, ex, pkgOf) <= i
    requires forall t :: ScanStart(c, ex, pkgOf) <= t < i ==> pkgOf(ex[t]) == c.breakpointPackage
    requires pkgOf(ex[i]) != c.breakpointPackage
    requires pkgOf(ex[i]) == TestingPackage
    ensures CallerAmong(c, ex, pkgOf) == PrevFrame(ex, i)
  {
    FirstOutAt(ex, pkgOf, c.breakpointPackage, ScanStart(c, ex, pkgOf), i);
  }

  lemma CallerIsFirstOutside(c: Cache, ex: seq<Frame>, pkgOf: Frame -> string, i: nat)
    requires i < |ex| && ScanStart(c, ex, pkgOf) <= i
    requires forall t :: ScanStart(c, ex, pkgOf) <= t < i ==> pkgOf(ex[t]) == c.breakpointPackage
    requires pkgOf(ex[i]) != c.breakpointPackage
    requires pkgOf(ex[i]) != TestingPackage
    ensures CallerAmong(c, ex, pkgOf) == ex[i]
  {
    FirstOutAt(ex, pkgOf, c.breakpointPackage, ScanStart(c, ex, pkgOf), i);
  }

  lemma CallerWhenAllInside(c: Cache, ex: seq<Frame>, pkgOf: Frame -> string)
    requires forall t :: ScanStart(c, ex, pkgOf) <= t < |ex| ==> pkgOf(ex[t]) == c.breakpointPackage
    ensures CallerAmong(c, ex, pkgOf) == PrevFrame(ex, |ex|)
  {
  }

  /** The first breakpoint-package frame of a scan that starts with the offset unset. */
  lemma LocatedAt(c: Cache, ex: seq<Frame>, pkgOf: Frame -> string, i: nat)
    requires !c.offsetIsSet && i < |ex| && i <= FirstIn(ex, pkgOf, c.breakpointPackage, 0)
    requires pkgOf(ex[i]) == c.breakpointPackage
    ensures Located(c, ex, pkgOf) == c.(minimumCallerDepth := c.minimumCallerDepth + i, offsetIsSet := true)
    ensures ScanStart(c, ex, pkgOf) == i + 1
  {
  }

  /** A scan that never meets the breakpoint package with the offset unset. */
  lemma NotLocated(c: Cache, ex: seq<Frame>, pkgOf: Frame -> string)
    requires !c.offsetIsSet && FirstIn(ex, pkgOf, c.breakpointPackage, 0) == |ex|
    ensures Located(c, ex, pkgOf) == c && ScanStart(c, ex, pkgOf) == |ex|
  {
  }

  /** `GetCaller`: captures the frames `runtime.Callers` reports and scans them. */
  method GetCaller(c: Cache, stack: seq<Frame>) returns (caller: Frame, c': Cache)
    ensures caller == CallerOf(c, stack)
    ensures c' == CacheAfter(c, stack)
    ensures c'.breakpointPackage == c.breakpointPackage && c'.maximumCallerDepth == c.maximumCallerDepth
  {
    var frames := Captured(c, stack);
    caller, c' := ScanForCaller(c, frames, Pkg);
  }

  /** The loop of `GetCaller` over the captured frames, with `pkgOf` standing for
      `GetPackageName` of the frame's function. */
  method ScanForCaller(c: Cache, frames: seq<Frame>, pkgOf: Frame -> string) returns (caller: Frame, c': Cache)
    ensures caller == CallerAmong(c, Front(frames), pkgOf)
    ensures c' == Located(c, Front(frames), pkgOf)
    ensures c'.breakpointPackage == c.breakpointPackage && c'.maximumCallerDepth == c.maximumCallerDepth
  {
    ghost var ex := Front(frames);
    ghost var bp := c.breakpointPackage;
    ghost var k := FirstIn(ex, pkgOf, bp, 0);
    ghost var s := ScanStart(c, ex, pkgOf);
    var offset: nat := 0;
    var latestFrame := ZeroFrame;
    c' := c;
    var i := 0;
    while i + 1 < |frames|
      invariant i <= |ex| && offset == i
      invariant latestFrame == PrevFrame(ex, i)
      invariant c'.breakpointPackage == bp && c'.maximumCallerDepth == c.maximumCallerDepth
      invariant !c'.offsetIsSet ==> c' == c && i <= k
      invariant c'.offsetIsSet ==> c' == Located(c, ex, pkgOf) && s <= i
      invariant c'.offsetIsSet ==> forall t :: s <= t < i ==> pkgOf(ex[t]) == bp
    {
      var f := frames[i];
      assert f == ex[i];
      var pkg := pkgOf(f);
      if !c'.offsetIsSet {
        if pkg == c'.breakpointPackage {
          LocatedAt(c, ex, pkgOf, i);
          c' := c'.(minimumCallerDepth := c'.minimumCallerDepth + offset, offsetIsSet := true);
        }
      } else if pkg != c'.breakpointPackage {
        if pkg == TestingPackage {
          CallerIsBeforeTesting(c, ex, pkgOf, i);
          break;
        }
        latestFrame := f;
        CallerIsFirstOutside(c, ex, pkgOf, i);
        break;
      }
      latestFrame := f;
      offset := offset + 1;
      i := i + 1;
    }
    if i + 1 >= |frames| {
      if !c'.offsetIsSet {
        NotLocated(c, ex, pkgOf);
      }
      CallerWhenAllInside(c, ex, pkgOf);
    }
    caller := latestFrame;
  }

  /** `GetStackFrames`: captures the frames `runtime.Callers` reports and scans them. */
  method GetStackFrames(c: Cache, stack: seq<Frame>) returns (useful: seq<Frame>, c': Cache)
    ensures useful == StackFramesOf(c, stack)
    ensures c' == CacheAfter(c, stack)
    ensures c'.breakpointPackage == c.breakpointPackage && c'.maximumCallerDepth == c.maximumCallerDepth
  {
    var frames := Captured(c, stack);
    useful, c' := ScanForFrames(c, frames, Pkg);
  }

  /** The loop of `GetStackFrames` over the captured frames, with `pkgOf` standing for
      `GetPackageName` of the frame's function. */
  method ScanForFrames(c: Cache, frames: seq<Frame>, pkgOf: Frame -> string) returns (useful: seq<Frame>, c': Cache)
    ensures useful == UsefulAmong(c, Front(frames), pkgOf)
    ensures c' == Located(c, Front(frames), pkgOf)
    ensures c'.breakpointPackage == c.breakpointPackage && c'.maximumCallerDepth == c.maximumCallerDepth
  {
    ghost var ex := Front(frames);
    ghost var bp := c.breakpointPackage;
    ghost var k := FirstIn(ex, pkgOf, bp, 0);
    ghost var s := ScanStart(c, ex, pkgOf);
    useful := [];
    var offset: nat := 0;
    var latestFrame := ZeroFrame;
    var latestPkg := "";
    c' := c;
    var i := 0;
    while i + 1 < |frames|
      invariant i <= |ex| && (!c'.offsetIsSet ==> offset == i)
      invariant latestPkg == PrevPkg(ex, pkgOf, i)
      invariant latestPkg == bp ==> latestFrame == PrevFrame(ex, i)
      invariant c'.breakpointPackage == bp && c'.maximumCallerDepth == c.maximumCallerDepth
      invariant !c'.offsetIsSet ==> c' == c && useful == [] && i <= k
      invariant c'.offsetIsSet ==> c' == Located(c, ex, pkgOf) && s <= i && useful == Useful(ex, pkgOf, bp, s, i)
    {
      var f := frames[i];
      assert f == ex[i];
      var pkg := pkgOf(f);
      if !c'.offsetIsSet {
        if pkg == c'.breakpointPackage {
          LocatedAt(c, ex, pkgOf, i);
          c' := c'.(minimumCallerDepth := c'.minimumCallerDepth + offset, offsetIsSet := true);
        }
      } else if pkg != c'.breakpointPackage {
        ghost var before := useful;
        if pkg == TestingPackage && latestPkg == c'.breakpointPackage {
          useful := useful + [latestFrame];
          assert useful + [f] == before + [latestFrame, f];
        }
        useful := useful + [f];
        latestPkg := pkg;
        i := i + 1;
        continue;
      }
      latestFrame := f;
      latestPkg := pkg;
      offset := offset + 1;
      i := i + 1;
    }
    if !c'.offsetIsSet {
      NotLocated(c, ex, pkgOf);
    }
  }

  // ---------------------------------------------------------------------------------
  // Properties of the offset cache

  /** The cache after a run of scans, one per call stack, in call order. */
  function Replay(c: Cache, stacks: seq<seq<Frame>>): Cache
    decreases |stacks|
  {
    if |stacks| == 0 then c else Replay(CacheAfter(c, stacks[0]), stacks[1..])
  }

  lemma {:induction false} ReplayAppend(c: Cache, a: seq<seq<Frame>>, b: seq<seq<Frame>>)
    ensures Replay(c, a + b) == Replay(Replay(c, a), b)
    decreases |a|
  {
    if |a| > 0 {
      assert (a + b)[0] == a[0];
      assert (a + b)[1..] == a[1..] + b;
      ReplayAppend(CacheAfter(c, a[0]), a[1..], b);
    } else {
      assert a + b == b;
    }
  }

  /** Once the offset is set, no later scan changes the cache. */
  lemma {:induction false} SetCacheIsFixed(c: Cache, stacks: seq<seq<Frame>>)
    requires c.offsetIsSet
    ensures Replay(c, stacks) == c
    decreases |stacks|
  {
    if |stacks| > 0 {
      SetCacheIsFixed(c, stacks[1..]);
    }
  }

  /** Scans that never meet the breakpoint package leave the cache as it was. */
  lemma {:induction false} UnsetReplayIsIdentity(c: Cache, stacks: seq<seq<Frame>>)
    requires !Replay(c, stacks).offsetIsSet
    ensures Replay(c, stacks) == c
    decreases |stacks|
  {
    if |stacks| > 0 {
      var c1 := CacheAfter(c, stacks[0]);
      if c1.offsetIsSet {
        SetCacheIsFixed(c1, stacks[1..]);
      } else {
        UnsetReplayIsIdentity(c1, stacks[1..]);
      }
    }
  }

  /** The first scan that sets the offset fixes the cache for the rest of the run: every
      later scan sees the cache that scan produced. */
  lemma OffsetSetOnce(c: Cache, stacks: seq<seq<Frame>>, i: nat)
    requires i < |stacks|
    requires !Replay(c, stacks[..i]).offsetIsSet
    requires CacheAfter(c, stacks[i]).offsetIsSet
    ensures Replay(c, stacks[..i]) == c
    ensures Replay(c, stacks[..i + 1]) == CacheAfter(c, stacks[i])
    ensures Replay(c, stacks) == CacheAfter(c, stacks[i])
  {
    UnsetReplayIsIdentity(c, stacks[..i]);
    ReplayUpTo(c, stacks, i);
    ReplaySplit(c, stacks, i + 1);
    SetCacheIsFixed(CacheAfter(c, stacks[i]), stacks[i + 1..]);
  }

  lemma ReplaySplit(c: Cache, stacks: seq<seq<Frame>>, n: nat)
    requires n <= |stacks|
    ensures Replay(c, stacks) == Replay(Replay(c, stacks[..n]), stacks[n..])
  {
    assert stacks == stacks[..n] + stacks[n..];
    ReplayAppend(c, stacks[..n], stacks[n..]);
  }

  lemma ReplayOne(c: Cache, stack: seq<Frame>)
    ensures Replay(c, [stack]) == CacheAfter(c, stack)
  {
    assert [stack][1..] == [];
  }

  /** A run whose first `i` scans leave the cache unchanged ends its `i+1`-th scan with
      what that one scan makes of the cache. */
  lemma ReplayUpTo(c: Cache, stacks: seq<seq<Frame>>, i: nat)
    requires i < |stacks|
    requires Replay(c, stacks[..i]) == c
    ensures Replay(c, stacks[..i + 1]) == CacheAfter(c, stacks[i])
  {
    assert stacks[..i + 1] == stacks[..i] + [stacks[i]];
    ReplayAppend(c, stacks[..i], [stacks[i]]);
    ReplayOne(c, stacks[i]);
  }

  /** A scan that meets the breakpoint package with the offset unset sets it, moving the
      minimum depth past the frames it scanned before that package; a scan that does not
      meet it, or runs with the offset already set, changes nothing. */
  lemma CacheAfterSets(c: Cache, stack: seq<Frame>)
    ensures var ex := Examined(c, stack);
      var k := FirstIn(ex, Pkg, c.breakpointPackage, 0);
      CacheAfter(c, stack) == if !c.offsetIsSet && k < |ex|
        then c.(minimumCallerDepth := c.minimumCallerDepth + k, offsetIsSet := true)
        else c
  {
  }

  /** The cache pays for itself: when the first scan of a call shape finds its caller, a
      second scan of the same stack that starts at the cached depth reports the same
      caller. */
  lemma OffsetCacheKeepsCaller(c: Cache, stack: seq<Frame>)
    requires !c.offsetIsSet
    requires var ex := Examined(c, stack);
      FirstOut(ex, Pkg, c.breakpointPackage, ScanStart(c, ex, Pkg)) < |ex|
    ensures CacheAfter(c, stack).offsetIsSet
    ensures CallerOf(CacheAfter(c, stack), stack) == CallerOf(c, stack)
  {
    var ex0 := Examined(c, stack);
    var bp := c.breakpointPackage;
    var k := FirstIn(ex0, Pkg, bp, 0);
    var j := FirstOut(ex0, Pkg, bp, ScanStart(c, ex0, Pkg));
    var c1 := c.(minimumCallerDepth := c.minimumCallerDepth + k, offsetIsSet := true);
    assert k < |ex0| && j == FirstOut(ex0, Pkg, bp, k + 1);
    assert CacheAfter(c, stack) == c1;
    ShiftedWindow(c, c1, stack, k, j);
    CallerAfterShift(c, c1, ex0, Examined(c1, stack), Pkg, k, j);
  }

  /** The caller seen through a window shifted past the first breakpoint-package frame. */
  lemma CallerAfterShift(c: Cache, c1: Cache, ex0: seq<Frame>, ex1: seq<Frame>, pkgOf: Frame -> string, k: nat, j: nat)
    requires !c.offsetIsSet && c1.offsetIsSet && c1.breakpointPackage == c.breakpointPackage
    requires k == FirstIn(ex0, pkgOf, c.breakpointPackage, 0) && k < |ex0|
    requires j == FirstOut(ex0, pkgOf, c.breakpointPackage, k + 1) && j < |ex0|
    requires j - k < |ex1| && forall t :: 0 <= t <= j - k ==> ex1[t] == ex0[t + k]
    ensures CallerAmong(c1, ex1, pkgOf) == CallerAmong(c, ex0, pkgOf)
  {
    var bp := c.breakpointPackage;
    assert ScanStart(c, ex0, pkgOf) == k + 1;
    assert forall t :: 0 <= t < j - k ==> pkgOf(ex1[t]) == pkgOf(ex0[t + k]) == bp;
    FirstOutAt(ex1, pkgOf, bp, 0, j - k);
    assert ex1[j - k] == ex0[j];
    assert PrevFrame(ex1, j - k) == PrevFrame(ex0, j);
  }

  /** Starting the capture `k` frames deeper shifts the examined frames by `k`, for as long
      as the first capture examined them. */
  lemma ShiftedWindow(c: Cache, c1: Cache, stack: seq<Frame>, k: nat, j: nat)
    requires k <= j < |Examined(c, stack)|
    requires c1.minimumCallerDepth == c.minimumCallerDepth + k && c1.maximumCallerDepth == c.maximumCallerDepth
    ensures var ex0 := Examined(c, stack);
      var ex1 := Examined(c1, stack);
      j - k < |ex1| && forall t :: 0 <= t <= j - k ==> ex1[t] == ex0[t + k]
  {
    var d := c.minimumCallerDepth;
    var fs0 := Captured(c, stack);
    var fs1 := Captured(c1, stack);
    assert d + j + 1 < |stack| && j + 1 < c.maximumCallerDepth;
    assert |fs1| > j - k + 1;
    forall t | 0 <= t <= j - k
      ensures fs1[t] == fs0[t + k]
    {
      assert fs1[t] == stack[d + k + t];
    }
  }

  // ---------------------------------------------------------------------------------
  // Properties of the reported stack

  /** The frames of `xs` outside package `bp`, in order. */
  function External(xs: seq<Frame>, pkgOf: Frame -> string, bp: string): seq<Frame> {
    if |xs| == 0 then []
    else External(xs[..|xs| - 1], pkgOf, bp) + (if pkgOf(Last(xs)) != bp then [Last(xs)] else [])
  }

  lemma {:induction false} UsefulIsExternal(ex: seq<Frame>, pkgOf: Frame -> string, bp: string, s: nat, e: nat)
    requires s <= e <= |ex|
    requires forall t :: s <= t < e ==> pkgOf(ex[t]) != TestingPackage
    ensures Useful(ex, pkgOf, bp, s, e) == External(ex[s..e], pkgOf, bp)
    decreases e
  {
    if e > s {
      UsefulIsExternal(ex, pkgOf, bp, s, e - 1);
      assert ex[s..e] == ex[s..e - 1] + [ex[e - 1]];
      assert ex[s..e][..e - s - 1] == ex[s..e - 1];
    }
  }

  /** Without test-runner frames, `GetStackFrames` reports exactly the examined frames after
      the boundary that lie outside the breakpoint package, in scan order. */
  lemma StackFramesAreExternal(c: Cache, stack: seq<Frame>)
    requires forall t :: 0 <= t < |Examined(c, stack)| ==> Pkg(Examined(c, stack)[t]) != TestingPackage
    ensures var ex := Examined(c, stack);
      StackFramesOf(c, stack) == External(ex[ScanStart(c, ex, Pkg)..], Pkg, c.breakpointPackage)
  {
    var ex := Examined(c, stack);
    var s := ScanStart(c, ex, Pkg);
    UsefulIsExternal(ex, Pkg, c.breakpointPackage, s, |ex|);
    assert ex[s..] == ex[s..|ex|];
  }

  lemma {:induction false} UsefulConcat(ex: seq<Frame>, pkgOf: Frame -> string, bp: string, s: nat, m: nat, e: nat)
    requires s <= m <= e <= |ex|
    ensures Useful(ex, pkgOf, bp, s, e) == Useful(ex, pkgOf, bp, s, m) + Useful(ex, pkgOf, bp, m, e)
    decreases e
  {
    if e > m {
      UsefulConcat(ex, pkgOf, bp, s, m, e - 1);
    }
  }

  /** A test-runner frame that directly follows a breakpoint-package frame after the
      boundary is reported right after that frame, which is inserted for it. */
  lemma TestingFrameKeepsItsCaller(c: Cache, stack: seq<Frame>, j: nat)
    requires var ex := Examined(c, stack);
      0 < j < |ex| && ScanStart(c, ex, Pkg) <= j
    requires Pkg(Examined(c, stack)[j]) == TestingPackage != c.breakpointPackage
    requires Pkg(Examined(c, stack)[j - 1]) == c.breakpointPackage
    ensures var ex := Examined(c, stack); var s := ScanStart(c, ex, Pkg);
      StackFramesOf(c, stack) ==
        Useful(ex, Pkg, c.breakpointPackage, s, j) + [ex[j - 1], ex[j]] + Useful(ex, Pkg, c.breakpointPackage, j + 1, |ex|)
  {
    var ex := Examined(c, stack);
    UsefulAroundTesting(ex, Pkg, c.breakpointPackage, ScanStart(c, ex, Pkg), j);
  }

  lemma UsefulAroundTesting(ex: seq<Frame>, pkgOf: Frame -> string, bp: string, s: nat, j: nat)
    requires 0 < j < |ex| && s <= j
    requires pkgOf(ex[j]) == TestingPackage != bp && pkgOf(ex[j - 1]) == bp
    ensures Useful(ex, pkgOf, bp, s, |ex|) == Useful(ex, pkgOf, bp, s, j) + [ex[j - 1], ex[j]] + Useful(ex, pkgOf, bp, j + 1, |ex|)
  {
    UsefulConcat(ex, pkgOf, bp, s, j, |ex|);
    UsefulConcat(ex, pkgOf, bp, j, j + 1, |ex|);
    assert Useful(ex, pkgOf, bp, j, j + 1) == Contribution(ex, pkgOf, bp, j);
  }

  /** A test function in the breakpoint package that asks for its caller directly (the call
      shape of `TestCallerName`) is reported as its own caller, not as the test runner:
      the stack is `runtime.Callers`, the resolver's own frame (outside the breakpoint
      package), the breakpoint-package entry point, the test function, `testing.tRunner`
      and the goroutine exit. */
  lemma TestFunctionIsItsOwnCaller(bp: string, callers: Frame, resolver: Frame, entry: Frame, test: Frame, runner: Frame, exit: Frame)
    requires bp != TestingPackage
    requires Pkg(resolver) != bp && Pkg(entry) == bp && Pkg(test) == bp && Pkg(runner) == TestingPackage
    ensures var stack := [callers, resolver, entry, test, runner, exit];
      && CallerOf(New(1, bp), stack) == test
      && CacheAfter(New(1, bp), stack) == New(1, bp).(minimumCallerDepth := 2, offsetIsSet := true)
  {
    var stack := [callers, resolver, entry, test, runner, exit];
    var c := New(1, bp);
    var ex := Examined(c, stack);
    assert ex == [resolver, entry, test, runner];
    assert FirstIn(ex, Pkg, bp, 0) == 1;
    assert FirstOut(ex, Pkg, bp, 2) == 3;
  }
}

=== FILE: suplog.dfy ===
/** The logger value of suplog.go: construction, lazy initialisation with the default
    hooks, copies made by the `With*` methods, `Close`, `CallerName`, and the routing of
    the convenience methods to levels and to process exit. What logrus does with an entry
    once it has been handed over is not part of this model. */
module Suplog {
  import opened Wrappers
  import opened Text
  import opened Levels
  import opened Values
  import opened StackCache
  import DebugHook
  import BlobHook
  import BugsnagHook

  /** An `io.Writer`: `nil`, or a stream that may also be an `io.WriteCloser`, in which
      case closing it gives `closeErr`. */
  datatype Writer = NilWriter | Stream(id: int, closable: bool, closeErr: Option<string>)

  /** `os.Stderr`, an `*os.File` and so a closer. */
  const Stderr: Writer := Stream(2, true, None)

  /** A `logrus.Formatter`: the text formatter or one the caller supplies. */
  datatype Formatter = TextFormatter | CustomFormatter(id: int)

  /** A hook installed on the logger: one of the library's three, or one the caller adds
      together with the levels it asks for. */
  datatype InstalledHook =
    | DebugHookOf(debug: DebugHook.Hook)
    | BlobHookOf(blob: BlobHook.Hook)
    | BugsnagHookOf(bugsnag: BugsnagHook.Hook)
    | CustomHook(id: int, levels: seq<Level>)

  /** The `logrus.Logger` a suplogger and its copies point to. */
  datatype Core = Core(out: Writer, formatter: Formatter, level: Level, hooks: seq<InstalledHook>)

  /** `suplogger`. `core` and `stack` are `None` in the zero value (`DefaultLogger`), and
      `mux` says whether the mutex pointer is set. */
  datatype Logger = Logger(
    core: Option<Core>,
    entry: Fields,
    mux: bool,
    writer: Writer,
    stack: Option<Cache>,
    stackTraceOffset: int,
    initDone: bool,
    closed: bool)

  /** The zero `suplogger`, the one `DefaultLogger` points to. */
  const ZeroLogger: Logger := Logger(None, map[], false, NilWriter, None, 0, false, false)

  /** The offset every logger's stack cache starts at. */
  const DefaultStackSearchOffset: nat := 1

  /** `reloadStackTraceCache`: the wrapper offset the source also passes is not a parameter of
      the two-argument cache constructor, so the cache does not depend on it. */
  function StackTraceCache(): Cache {
    New(DefaultStackSearchOffset, SuplogPackage)
  }

  /** `NewLogger`: a logger that needs no further initialisation, writing to `wr` as given
      (even `nil`), with the text formatter unless one is given, at debug level, with the
      given hooks installed in order and an empty entry. */
  function NewLogger(wr: Writer, formatter: Option<Formatter>, hooks: seq<InstalledHook>): (l: Logger)
    ensures l.initDone && !l.closed && l.mux
    ensures l.writer == wr && l.core.Some? && l.core.value.out == wr
    ensures formatter.None? ==> l.core.value.formatter == TextFormatter
    ensures formatter.Some? ==> l.core.value.formatter == formatter.value
    ensures l.core.value.level == DebugLevel
    ensures l.core.value.hooks == hooks
    ensures l.entry == map[] && l.stackTraceOffset == 0
    ensures l.stack == Some(New(1, SuplogPackage))
  {
    var core := Core(wr, formatter.GetOr(TextFormatter), DebugLevel, hooks);
    Logger(Some(core), map[], true, wr, Some(StackTraceCache()), 0, true, false)
  }

  // ---------------------------------------------------------------------------------
  // Lazy initialisation

  /** The spellings `isTrue` accepts, after lower-casing. */
  const IsTrueSpellings: set<string> := {"1", "true", "y"}

  /** `isTrue`. */
  function IsTrue(v: string): (b: bool)
    ensures b <==> ToLower(v) in IsTrueSpellings
  {
    var s := ToLower(v);
    s == "1" || s == "true" || s == "y"
  }

  /** `isTrue` ignores the case of ASCII letters. */
  lemma IsTrueIgnoresCase(a: string, b: string)
    requires ToLower(a) == ToLower(b)
    ensures IsTrue(a) == IsTrue(b)
  {
  }

  /** `isTrue` and the bugsnag hook's `toBool` read flags differently: "y" is true only for
      the first, "t" and "yes" only for the second, and both accept "1" and "TRUE". */
  lemma IsTrueAndToBoolDiffer()
    ensures IsTrue("y") && !BugsnagHook.ToBool("y")
    ensures !IsTrue("yes") && BugsnagHook.ToBool("yes")
    ensures !IsTrue("t") && BugsnagHook.ToBool("t")
    ensures IsTrue("1") && BugsnagHook.ToBool("1")
    ensures IsTrue("TRUE") && BugsnagHook.ToBool("TRUE")
  {
    assert ToLower("TRUE") == "true";
    assert ToLower("y") == "y" && ToLower("yes") == "yes" && ToLower("t") == "t" && ToLower("1") == "1";
  }

  /** `addDefaultHooks`: the debug hook always, then the blob hook when `LOG_BLOB_ENABLED`
      reads true and the bugsnag hook when `LOG_BUGSNAG_ENABLED` does; `remoteUp` is the
      outcome of the blob hook's remote setup. */
  function DefaultHooks(env: Env, remoteUp: bool): seq<InstalledHook> {
    var blob := if IsTrue(Getenv(env, "LOG_BLOB_ENABLED")) then [BlobHookOf(BlobHook.NewHook(None, env, remoteUp))] else [];
    var bugsnag := if IsTrue(Getenv(env, "LOG_BUGSNAG_ENABLED")) then [BugsnagHookOf(BugsnagHook.NewHook(None, env))] else [];
    [DebugHookOf(DebugHook.NewHook(None, env))] + blob + bugsnag
  }

  datatype HookKind = DebugKind | BlobKind | BugsnagKind | CustomKind

  function KindOf(h: InstalledHook): HookKind {
    match h
    case DebugHookOf(_) => DebugKind
    case BlobHookOf(_) => BlobKind
    case BugsnagHookOf(_) => BugsnagKind
    case CustomHook(_, _) => CustomKind
  }

  // Counting hooks by kind is proof machinery for `DefaultHooksInstalled`; `CountKind` and
  // the lemmas about it model no operation of the library.

  /** How many of the installed hooks are of `kind`. */
  function CountKind(hs: seq<InstalledHook>, kind: HookKind): (r: nat)
    ensures r <= |hs|
  {
    if |hs| == 0 then 0 else CountKind(hs[..|hs| - 1], kind) + (if KindOf(Last(hs)) == kind then 1 else 0)
  }

  lemma {:induction false} CountKindAppend(a: seq<InstalledHook>, b: seq<InstalledHook>, kind: HookKind)
    ensures CountKind(a + b, kind) == CountKind(a, kind) + CountKind(b, kind)
    decreases |b|
  {
    if |b| > 0 {
      assert (a + b)[..|a + b| - 1] == a + b[..|b| - 1];
      CountKindAppend(a, b[..|b| - 1], kind);
    } else {
      assert a + b == a;
    }
  }

  /** The default hooks: exactly one debug hook, first; one blob hook exactly when
      `LOG_BLOB_ENABLED` reads true and one bugsnag hook exactly when `LOG_BUGSNAG_ENABLED`
      does; nothing else. */
  lemma DefaultHooksInstalled(env: Env, remoteUp: bool)
    ensures var hs := DefaultHooks(env, remoteUp);
      && hs[0].DebugHookOf?
      && CountKind(hs, DebugKind) == 1
      && CountKind(hs, BlobKind) == (if IsTrue(Getenv(env, "LOG_BLOB_ENABLED")) then 1 else 0)
      && CountKind(hs, BugsnagKind) == (if IsTrue(Getenv(env, "LOG_BUGSNAG_ENABLED")) then 1 else 0)
      && CountKind(hs, CustomKind) == 0
  {
    var blob := if IsTrue(Getenv(env, "LOG_BLOB_ENABLED")) then [BlobHookOf(BlobHook.NewHook(None, env, remoteUp))] else [];
    var bugsnag := if IsTrue(Getenv(env, "LOG_BUGSNAG_ENABLED")) then [BugsnagHookOf(BugsnagHook.NewHook(None, env))] else [];
    var debug := DebugHookOf(DebugHook.NewHook(None, env));
    assert DefaultHooks(env, remoteUp) == [debug] + blob + bugsnag;
    CountThree(debug, blob, bugsnag);
  }

  /** Proof helper: the kind counts of the three-part default hook list. */
  lemma CountThree(debug: InstalledHook, blob: seq<InstalledHook>, bugsnag: seq<InstalledHook>)
    requires debug.DebugHookOf?
    requires forall i :: 0 <= i < |blob| ==> blob[i].BlobHookOf?
    requires forall i :: 0 <= i < |bugsnag| ==> bugsnag[i].BugsnagHookOf?
    ensures CountKind([debug] + blob + bugsnag, DebugKind) == 1
    ensures CountKind([debug] + blob + bugsnag, BlobKind) == |blob|
    ensures CountKind([debug] + blob + bugsnag, BugsnagKind) == |bugsnag|
    ensures CountKind([debug] + blob + bugsnag, CustomKind) == 0
  {
    forall kind: HookKind
      ensures CountKind([debug] + blob + bugsnag, kind) == CountKind([debug], kind) + CountKind(blob, kind) + CountKind(bugsnag, kind)
    {
      CountKindAppend([debug] + blob, bugsnag, kind);
      CountKindAppend([debug], blob, kind);
    }
    assert [debug][..0] == [];
    CountAllOfKind(blob, BlobKind);
    CountAllOfKind(bugsnag, BugsnagKind);
  }

  /** A sequence of hooks all of `kind` counts its length for `kind` and nothing for any
      other kind. */
  lemma {:induction false} CountAllOfKind(hs: seq<InstalledHook>, kind: HookKind)
    requires forall i :: 0 <= i < |hs| ==> KindOf(hs[i]) == kind
    ensures forall k :: CountKind(hs, k) == (if k == kind then |hs| else 0)
  {
    if |hs| > 0 {
      CountAllOfKind(hs[..|hs| - 1], kind);
    }
  }

  /** What every logger value keeps: once initialised, it has a core, a stack cache and a
      mutex. */
  predicate WellFormed(l: Logger) {
    l.initDone ==> l.mux && l.core.Some? && l.stack.Some?
  }

  /** `initOnce`: a logger that is already initialised is left alone; otherwise a `nil`
      writer becomes standard error and the logger gets the text formatter, debug level,
      the default hooks, an empty entry, a fresh stack cache and a mutex. */
  function InitOnce(l: Logger, env: Env, remoteUp: bool): (l': Logger)
    ensures l.initDone ==> l' == l
    ensures WellFormed(l) ==> l'.initDone && l'.mux && l'.core.Some? && l'.stack.Some?
    ensures l'.writer != NilWriter || l.initDone
    ensures !l.initDone ==> l'.writer == (if l.writer == NilWriter then Stderr else l.writer)
    ensures !l.initDone ==> l'.core.value == Core(l'.writer, TextFormatter, DebugLevel, DefaultHooks(env, remoteUp))
    ensures !l.initDone ==> l'.entry == map[] && l'.closed == l.closed && l'.stackTraceOffset == l.stackTraceOffset
    ensures !l.initDone ==> l'.stack == Some(New(DefaultStackSearchOffset, SuplogPackage))
  {
    if l.initDone then l
    else
      var w := if l.writer == NilWriter then Stderr else l.writer;
      Logger(Some(Core(w, TextFormatter, DebugLevel, DefaultHooks(env, remoteUp))), map[], true,
             w, Some(StackTraceCache()), l.stackTraceOffset, true, l.closed)
  }

  /** Initialisation happens once: a second `initOnce` changes nothing, whatever the
      environment says by then. */
  lemma InitOnceIdempotent(l: Logger, env: Env, env': Env, remoteUp: bool, remoteUp': bool)
    ensures InitOnce(InitOnce(l, env, remoteUp), env', remoteUp') == InitOnce(l, env, remoteUp)
  {
  }

  /** A logger made by `NewLogger` is never re-initialised: neither a `nil` writer nor the
      default hooks are filled in later. */
  lemma NewLoggerNeedsNoInit(wr: Writer, formatter: Option<Formatter>, hooks: seq<InstalledHook>, env: Env, remoteUp: bool)
    ensures InitOnce(NewLogger(wr, formatter, hooks), env, remoteUp) == NewLogger(wr, formatter, hooks)
  {
  }

  // ---------------------------------------------------------------------------------
  // Copies and the With* methods

  /** `copy`: a logger on the same writer, core, stack cache and mutex, carrying the
      receiver's `initDone` and `closed` as they are now, with no entry of its own and the
      wrapper offset back at zero. */
  function Copy(l: Logger): (c: Logger)
    ensures c.writer == l.writer && c.core == l.core && c.stack == l.stack && c.mux == l.mux
    ensures c.initDone == l.initDone && c.closed == l.closed
    ensures c.entry == map[] && c.stackTraceOffset == 0
  {
    Logger(l.core, map[], l.mux, l.writer, l.stack, 0, l.initDone, l.closed)
  }

  /** What a `With*` call leaves behind: the receiver, initialised, and the new logger. */
  datatype Derived = Derived(receiver: Logger, derived: Logger)

  /** The shape every `With*` result has: the receiver is initialised and otherwise kept,
      and the derived logger is a copy of it whose entry is `entry`. */
  predicate DerivedWith(l: Logger, env: Env, remoteUp: bool, d: Derived, entry: Fields) {
    && d.receiver == InitOnce(l, env, remoteUp)
    && d.derived == Copy(d.receiver).(entry := entry)
  }

  /** `WithField`: the derived entry has `key` set to `value` and every other field of the
      receiver's entry. */
  function WithField(l: Logger, env: Env, remoteUp: bool, key: string, value: Value): (d: Derived)
    ensures var before := InitOnce(l, env, remoteUp).entry;
      && DerivedWith(l, env, remoteUp, d, d.derived.entry)
      && d.derived.entry.Keys == before.Keys + {key}
      && d.derived.entry[key] == value
      && (forall k :: k in before && k != key ==> d.derived.entry[k] == before[k])
  {
    var r := InitOnce(l, env, remoteUp);
    Derived(r, Copy(r).(entry := r.entry[key := value]))
  }

  /** `WithFields`: the derived entry holds the receiver's fields and the given ones, the
      given ones winning. */
  function WithFields(l: Logger, env: Env, remoteUp: bool, fields: Fields): (d: Derived)
    ensures var before := InitOnce(l, env, remoteUp).entry;
      && DerivedWith(l, env, remoteUp, d, d.derived.entry)
      && d.derived.entry.Keys == before.Keys + fields.Keys
      && (forall k :: k in fields ==> d.derived.entry[k] == fields[k])
      && (forall k :: k in before && k !in fields ==> d.derived.entry[k] == before[k])
  {
    var r := InitOnce(l, env, remoteUp);
    Derived(r, Copy(r).(entry := r.entry + fields))
  }

  /** `WithError`: the error (or `nil`) under logrus's `"error"` key, over every other field
      of the receiver's entry. */
  function WithError(l: Logger, env: Env, remoteUp: bool, err: Option<GoError>): (d: Derived)
    ensures "error" in d.derived.entry
    ensures err.Some? ==> d.derived.entry["error"] == Err(err.value)
    ensures err.None? ==> d.derived.entry["error"] == Nil
    ensures DerivedWith(l, env, remoteUp, d, d.derived.entry)
    ensures var before := InitOnce(l, env, remoteUp).entry;
      && d.derived.entry.Keys == before.Keys + {"error"}
      && (forall k :: k in before && k != "error" ==> d.derived.entry[k] == before[k])
  {
    WithField(l, env, remoteUp, "error", if err.Some? then Err(err.value) else Nil)
  }

  /** `WithContext` and `WithTime`: the derived entry carries the same fields (the context
      and the time themselves are entry attributes outside this model). */
  function WithContextOrTime(l: Logger, env: Env, remoteUp: bool): (d: Derived)
    ensures DerivedWith(l, env, remoteUp, d, InitOnce(l, env, remoteUp).entry)
  {
    var r := InitOnce(l, env, remoteUp);
    Derived(r, Copy(r).(entry := r.entry))
  }

  /** Deriving never alters the receiver's fields, and the derived logger is open exactly
      when the receiver is. */
  lemma WithFieldKeepsReceiver(l: Logger, env: Env, remoteUp: bool, key: string, value: Value)
    requires l.initDone
    ensures WithField(l, env, remoteUp, key, value).receiver == l
    ensures WithField(l, env, remoteUp, key, value).derived.closed == l.closed
    ensures key !in l.entry ==> WithField(l, env, remoteUp, key, value).derived.entry - {key} == l.entry
  {
    var d := WithField(l, env, remoteUp, key, value);
    if key !in l.entry {
      assert d.derived.entry - {key} == l.entry;
    }
  }

  // ---------------------------------------------------------------------------------
  // Close

  /** The outcome of `Close`: it returns an error value, or panics on a `nil` mutex. */
  datatype CloseOutcome = NilMutexPanic | Closed(err: Option<string>)

  /** `Close`: without a mutex it panics; a closed logger returns `nil`; otherwise the
      logger becomes closed and returns its writer's close error if the writer is an
      `io.WriteCloser`, and `nil` if not. */
  function Close(l: Logger): (r: (Logger, CloseOutcome))
    ensures r.1.NilMutexPanic? <==> !l.mux
    ensures r.1.NilMutexPanic? ==> r.0 == l
    ensures l.mux && l.closed ==> r == (l, Closed(None))
    ensures l.mux && !l.closed ==> r.0 == l.(closed := true)
    ensures l.mux && !l.closed && l.writer.Stream? && l.writer.closable ==> r.1 == Closed(l.writer.closeErr)
    ensures l.mux && !l.closed && !(l.writer.Stream? && l.writer.closable) ==> r.1 == Closed(None)
  {
    if !l.mux then (l, NilMutexPanic)
    else if l.closed then (l, Closed(None))
    else
      var l' := l.(closed := true);
      match l.writer
      case Stream(_, true, err) => (l', Closed(err))
      case _ => (l', Closed(None))
  }

  /** Whether `Close` closes the underlying writer. */
  predicate ClosesWriter(l: Logger) {
    l.mux && !l.closed && l.writer.Stream? && l.writer.closable
  }

  /** Closing twice: the second `Close` on the same logger value returns `nil` and closes
      nothing. */
  lemma CloseIdempotent(l: Logger)
    requires l.mux
    ensures var (l1, _) := Close(l);
      && l1.closed
      && !ClosesWriter(l1)
      && Close(l1) == (l1, Closed(None))
  {
  }

  /** `closed` is carried by value, not shared: a copy taken before `Close` closes the shared
      writer a second time. */
  lemma CopyBeforeCloseClosesAgain(l: Logger)
    requires ClosesWriter(l)
    ensures var c := Copy(l);
      var (l1, out1) := Close(l);
      var (_, out2) := Close(c);
      && l1.closed
      && ClosesWriter(c)
      && out1 == out2 == Closed(l.writer.closeErr)
  {
  }

  /** `DefaultLogger` panics on `Close` until something has initialised it, since `Close`
      does not call `initOnce`. */
  lemma DefaultLoggerCloseNeedsInit(env: Env, remoteUp: bool)
    ensures Close(ZeroLogger).1 == NilMutexPanic
    ensures Close(InitOnce(ZeroLogger, env, remoteUp)).1 == Closed(None)
  {
  }

  // ---------------------------------------------------------------------------------
  // CallerName

  /** `CallerName`: initialises the logger, asks its stack cache for the caller and keeps
      the last `.`-part of the last `/`-part of the caller's function name. */
  method CallerName(l: Logger, env: Env, remoteUp: bool, stack: seq<Frame>) returns (name: string, l': Logger)
    requires WellFormed(l)
    ensures var r := InitOnce(l, env, remoteUp);
      && name == ShortName(CallerOf(r.stack.value, stack).funcName)
      && l' == r.(stack := Some(CacheAfter(r.stack.value, stack)))
  {
    var r := InitOnce(l, env, remoteUp);
    var caller, c' := GetCaller(r.stack.value, stack);
    var parts := Split(caller.funcName, '/');
    var nameParts := Split(parts[|parts| - 1], '.');
    name := nameParts[|nameParts| - 1];
    l' := r.(stack := Some(c'));
  }

  /** `TestCallerName`'s call shape: a test function in the library's package that calls
      `CallerName` on a new logger gets its own short name. */
  lemma TestCallerNameIsOwnName(callers: Frame, resolver: Frame, entry: Frame, runner: Frame, exit: Frame)
    requires Pkg(resolver) != SuplogPackage && Pkg(entry) == SuplogPackage && Pkg(runner) == TestingPackage
    ensures var test := Frame(SuplogPackage + "." + "TestCallerName", "fields_test.go", 15, 0);
      var stack := NewLogger(NilWriter, None, []).stack.value;
      ShortName(CallerOf(stack, [callers, resolver, entry, test, runner, exit]).funcName) == "TestCallerName"
  {
    var test := Frame(SuplogPackage + "." + "TestCallerName", "fields_test.go", 15, 0);
    SuplogPackageIsAPackage();
    PackageNameOfQualified(SuplogPackage, "TestCallerName");
    TestFunctionIsItsOwnCaller(SuplogPackage, callers, resolver, entry, test, runner, exit);
    ShortNameOfQualified(SuplogPackage, "TestCallerName");
  }

  // ---------------------------------------------------------------------------------
  // Routing of the logging methods

  /** How a call's arguments become the message: `fmt.Sprint`, `fmt.Sprintf` of a format,
      or `fmt.Sprintln`. */
  datatype Style = Sprint | Sprintf | Sprintln

  /** The logging methods of a suplogger. `Log`, `Logf` and `Logln` take the level as an
      argument; `Debug`, `Notification`, `Success`, `Warning` and `Error` take a format. */
  datatype Method =
    | Logf(level: Level) | Tracef | Debugf | Infof | Printf | Warningf | Errorf | Fatalf | Panicf
    | Log(level: Level) | Trace | Info | Print | Fatal | Panic
    | Logln(level: Level) | Traceln | Debugln | Infoln | Println | Warningln | Errorln | Fatalln | Panicln
    | Debug | Notification | Success | Warning | Error

  /** What a call does after `initOnce`: hand one entry to logrus, at a level or through
      logrus's `Print` family, and possibly exit the process. */
  datatype Effect = Emit(level: Level, style: Style) | EmitPrint(style: Style) | Exit(code: int)

  /** The effects of each method, in order. */
  function Route(m: Method): seq<Effect> {
    match m
    case Logf(level) => [Emit(level, Sprintf)]
    case Tracef => [Emit(TraceLevel, Sprintf)]
    case Debugf => [Emit(DebugLevel, Sprintf)]
    case Infof => [Emit(InfoLevel, Sprintf)]
    case Printf => [EmitPrint(Sprintf)]
    case Warningf => [Emit(WarnLevel, Sprintf)]
    case Errorf => [Emit(ErrorLevel, Sprintf)]
    case Fatalf => [Emit(FatalLevel, Sprintf), Exit(1)]
    case Panicf => [Emit(PanicLevel, Sprintf)]
    case Log(level) => [Emit(level, Sprint)]
    case Trace => [Emit(TraceLevel, Sprint)]
    case Info => [Emit(InfoLevel, Sprint)]
    case Print => [EmitPrint(Sprint)]
    case Fatal => [Emit(FatalLevel, Sprint), Exit(1)]
    case Panic => [Emit(PanicLevel, Sprint)]
    case Logln(level) => [Emit(level, Sprintln)]
    case Traceln => [Emit(TraceLevel, Sprintln)]
    case Debugln => [Emit(DebugLevel, Sprintln)]
    case Infoln => [Emit(InfoLevel, Sprintln)]
    case Println => [EmitPrint(Sprintln)]
    case Warningln => [Emit(WarnLevel, Sprintln)]
    case Errorln => [Emit(ErrorLevel, Sprintln)]
    case Fatalln => [Emit(FatalLevel, Sprintln), Exit(1)]
    case Panicln => [Emit(PanicLevel, Sprintln)]
    case Debug => [Emit(DebugLevel, Sprintf)]
    case Notification => [Emit(InfoLevel, Sprintf)]
    case Success => [Emit(InfoLevel, Sprintf)]
    case Warning => [Emit(WarnLevel, Sprintf)]
    case Error => [Emit(ErrorLevel, Sprintf)]
  }

  /** The fatal family of methods. */
  predicate IsFatalMethod(m: Method) {
    m == Fatal || m == Fatalf || m == Fatalln
  }

  /** A call makes exactly one entry, first; it exits, with status 1 and afterwards, exactly
      for `Fatal`, `Fatalf` and `Fatalln` (so `Log(FatalLevel, ...)` does not exit). Suplog's
      own code adds no exit other than the fatal family's; the panic at `PanicLevel` happens
      inside logrus and is not modelled. */
  lemma RouteExitsOnlyForFatal(m: Method)
    ensures 1 <= |Route(m)| <= 2
    ensures !Route(m)[0].Exit?
    ensures forall i :: 1 <= i < |Route(m)| ==> Route(m)[i] == Exit(1)
    ensures |Route(m)| == 2 <==> IsFatalMethod(m)
    ensures IsFatalMethod(m) ==> Route(m)[0].Emit? && Route(m)[0].level == FatalLevel
  {
  }

  /** Logging at the fatal level through `Log`, `Logf` or `Logln` makes the entry and
      returns. */
  lemma LogAtFatalDoesNotExit()
    ensures Route(Log(FatalLevel)) == [Emit(FatalLevel, Sprint)]
    ensures Route(Logf(FatalLevel)) == [Emit(FatalLevel, Sprintf)]
    ensures Route(Logln(FatalLevel)) == [Emit(FatalLevel, Sprintln)]
  {
  }

  /** The name a method is spelled with, without its `f` or `ln` suffix, in lower case. */
  function Stem(m: Method): string {
    match m
    case Logf(_) => "log"
    case Log(_) => "log"
    case Logln(_) => "log"
    case Tracef => "trace"
    case Trace => "trace"
    case Traceln => "trace"
    case Debugf => "debug"
    case Debugln => "debug"
    case Debug => "debug"
    case Infof => "info"
    case Info => "info"
    case Infoln => "info"
    case Printf => "print"
    case Print => "print"
    case Println => "print"
    case Warningf => "warning"
    case Warningln => "warning"
    case Warning => "warning"
    case Errorf => "error"
    case Errorln => "error"
    case Error => "error"
    case Fatalf => "fatal"
    case Fatal => "fatal"
    case Fatalln => "fatal"
    case Panicf => "panic"
    case Panic => "panic"
    case Panicln => "panic"
    case Notification => "notification"
    case Success => "success"
  }

  /** Whether the method's name ends in `f`, `ln`, or neither. */
  function Suffix(m: Method): string {
    match m
    case Logf(_) => "f"
    case Tracef => "f"
    case Debugf => "f"
    case Infof => "f"
    case Printf => "f"
    case Warningf => "f"
    case Errorf => "f"
    case Fatalf => "f"
    case Panicf => "f"
    case Logln(_) => "ln"
    case Traceln => "ln"
    case Debugln => "ln"
    case Infoln => "ln"
    case Println => "ln"
    case Warningln => "ln"
    case Errorln => "ln"
    case Fatalln => "ln"
    case Panicln => "ln"
    case _ => ""
  }

  /** A method named after a level logs at the level its name parses to; `Notification` and
      `Success` log at info. */
  lemma RouteLevelFollowsName(m: Method)
    requires Stem(m) in LevelNames || Stem(m) in {"notification", "success"}
    ensures Route(m)[0].Emit?
    ensures Stem(m) in LevelNames ==> ParseLevel(Stem(m)) == Parsed(Route(m)[0].level, None)
    ensures Stem(m) !in LevelNames ==> Route(m)[0].level == InfoLevel
  {
    if Stem(m) in LevelNames {
      var l := Route(m)[0].level;
      assert Named(l) && LevelName(l) == Stem(m);
      LevelNameIsLowerCase(l);
      ParseLevelName(l, Stem(m));
    }
  }

  /** `f` methods format with `Sprintf`, `ln` methods with `Sprintln`, and the rest with
      `Sprint` except the five format-taking methods without a suffix. */
  lemma RouteStyleFollowsName(m: Method)
    ensures Suffix(m) == "f" ==> Route(m)[0].style == Sprintf
    ensures Suffix(m) == "ln" ==> Route(m)[0].style == Sprintln
    ensures Suffix(m) == "" ==> (Route(m)[0].style == Sprintf <==> Stem(m) in {"debug", "notification", "success", "warning", "error"})
  {
  }
}

=== FILE: text.dfy ===
/** The handful of Go `strings`, `strconv` and `os` operations the logging core relies on,
    on strings modelled as `seq<char>` (one `char` per byte of the Go string). */
module Text {
  import opened Wrappers

  /** The process environment, passed in instead of read through `os.Getenv`. */
  type Env = map<string, string>

  /** `os.Getenv`: an unset variable reads as the empty string. */
  function Getenv(env: Env, key: string): (v: string)
    ensures key !in env ==> v == ""
    ensures key in env ==> v == env[key]
  {
    if key in env then env[key] else ""
  }

  /** The `if len(x) == 0 { x = fallback }` pattern of the hooks' option checks. */
  function OrElse<T>(value: seq<T>, fallback: seq<T>): (r: seq<T>)
    ensures value != [] ==> r == value
    ensures value == [] ==> r == fallback
  {
    if |value| == 0 then fallback else value
  }

  /** `strings.LastIndex` / `strings.LastIndexByte` for a one-character separator:
      the position of the last `c` in `s`, or -1 when `s` has none. */
  function LastIndex(s: string, c: char): (i: int)
    ensures -1 <= i < |s|
    ensures i >= 0 ==> s[i] == c
  {
    if |s| == 0 then -1
    else if s[|s| - 1] == c then |s| - 1
    else LastIndex(s[..|s| - 1], c)
  }

  /** No `c` follows the one `LastIndex` finds. */
  lemma {:induction false} LastIndexIsLast(s: string, c: char)
    ensures forall k :: LastIndex(s, c) < k < |s| ==> s[k] != c
    decreases |s|
  {
    if |s| > 0 && s[|s| - 1] != c {
      var front := s[..|s| - 1];
      LastIndexIsLast(front, c);
      assert forall k :: LastIndex(s, c) < k < |s| - 1 ==> s[k] == front[k];
    }
  }

  /** The first position at or after `from` that holds `c`, or `|s|` when there is none. */
  function FirstIndexFrom(s: string, c: char, from: nat): (i: nat)
    requires from <= |s|
    ensures from <= i <= |s|
    ensures i < |s| ==> s[i] == c
    ensures forall k :: from <= k < i ==> s[k] != c
    decreases |s| - from
  {
    if from == |s| then |s|
    else if s[from] == c then from
    else FirstIndexFrom(s, c, from + 1)
  }

  /** `FirstIndexFrom` is determined by its characterisation. */
  lemma {:induction false} FirstIndexFromAt(s: string, c: char, from: nat, i: nat)
    requires from <= i <= |s|
    requires i < |s| ==> s[i] == c
    requires forall k :: from <= k < i ==> s[k] != c
    ensures FirstIndexFrom(s, c, from) == i
    decreases i - from
  {
    if from < i {
      FirstIndexFromAt(s, c, from + 1, i);
    }
  }

  /** `LastIndex` is determined by its characterisation. */
  lemma {:induction false} LastIndexAt(s: string, c: char, i: int)
    requires -1 <= i < |s|
    requires i >= 0 ==> s[i] == c
    requires forall k :: i < k < |s| ==> s[k] != c
    ensures LastIndex(s, c) == i
    decreases |s|
  {
    if |s| > 0 && i < |s| - 1 {
      var front := s[..|s| - 1];
      assert forall k :: i < k < |front| ==> front[k] == s[k];
      LastIndexAt(front, c, i);
    }
  }

  /** Cutting a string after its last `c` does not move that last `c`. */
  lemma LastIndexOfPrefix(s: string, c: char, n: nat)
    requires LastIndex(s, c) < n <= |s|
    ensures LastIndex(s[..n], c) == LastIndex(s, c)
  {
    LastIndexIsLast(s, c);
    LastIndexAt(s[..n], c, LastIndex(s, c));
  }

  /** The last element of a non-empty sequence. */
  function Last<T>(xs: seq<T>): T
    requires |xs| > 0
  {
    xs[|xs| - 1]
  }

  lemma FrontAndLast<T>(xs: seq<T>)
    requires |xs| > 0
    ensures xs[..|xs| - 1] + [Last(xs)] == xs
  {
  }

  /** `strings.Join` with a one-character separator. */
  function Join(parts: seq<string>, c: char): (s: string)
    requires |parts| > 0
  {
    if |parts| == 1 then parts[0]
    else Join(parts[..|parts| - 1], c) + [c] + Last(parts)
  }

  lemma JoinTwo(a: string, b: string, c: char)
    ensures Join([a, b], c) == a + [c] + b
  {
    assert [a, b][..1] == [a];
  }

  /** `strings.Split` with a one-character separator: the pieces between the separators,
      so `n` separators give `n + 1` pieces and the empty string gives one empty piece. */
  function Split(s: string, c: char): (parts: seq<string>)
    ensures |parts| > 0
    decreases |s|
  {
    var i := LastIndex(s, c);
    if i < 0 then [s] else Split(s[..i], c) + [s[i + 1..]]
  }

  /** The last piece is what follows the last separator. */
  lemma SplitLast(s: string, c: char)
    ensures Last(Split(s, c)) == s[LastIndex(s, c) + 1..]
  {
  }

  /** `r` is the longest suffix of `s` holding none of `seps`: it misses every separator
      and is either all of `s` or starts right after one. */
  predicate TailAfter(s: string, r: string, seps: set<char>) {
    && |r| <= |s| && r == s[|s| - |r|..]
    && (forall ch :: ch in r ==> ch !in seps)
    && (|r| == |s| || s[|s| - |r| - 1] in seps)
  }

  /** The last piece is the longest suffix without the separator. */
  lemma LastPieceShape(s: string, c: char)
    ensures TailAfter(s, Last(Split(s, c)), {c})
  {
    SplitLast(s, c);
    LastIndexIsLast(s, c);
  }

  /** The longest clean tail of the longest clean tail is the longest tail clean of both
      separator sets. */
  lemma TailAfterTail(s: string, p: string, r: string, seps: set<char>, more: set<char>)
    requires TailAfter(s, p, seps) && TailAfter(p, r, more)
    ensures TailAfter(s, r, seps + more)
  {
    assert s[|s| - |p|..][|p| - |r|..] == s[|s| - |r|..];
    assert forall k :: 0 <= k < |r| ==> r[k] == p[|p| - |r| + k];
    if |r| < |p| {
      assert s[|s| - |r| - 1] == p[|p| - |r| - 1];
    }
  }

  /** The same, for two single separators. */
  lemma TailAfterBoth(s: string, p: string, r: string, a: char, b: char)
    requires TailAfter(s, p, {a}) && TailAfter(p, r, {b})
    ensures TailAfter(s, r, {a, b})
  {
    TailAfterTail(s, p, r, {a}, {b});
    assert {a} + {b} == {a, b};
  }

  /** After a separator, a tail free of separators is the only longest clean tail. */
  lemma TailAfterSeparator(front: string, sep: char, name: string, r: string, seps: set<char>)
    requires sep in seps && forall ch :: ch in name ==> ch !in seps
    requires TailAfter(front + [sep] + name, r, seps)
    ensures r == name
  {
    var s := front + [sep] + name;
    assert s[|front|] == sep;
    assert forall j :: |front| < j < |s| ==> s[j] == name[j - |front| - 1];
    assert s[|s| - |name|..] == name;
  }

  /** No piece holds the separator. */
  lemma {:induction false} SplitPiecesAreClean(s: string, c: char)
    ensures forall i :: 0 <= i < |Split(s, c)| ==> c !in Split(s, c)[i]
    decreases |s|
  {
    var i := LastIndex(s, c);
    LastIndexIsLast(s, c);
    if i >= 0 {
      SplitPiecesAreClean(s[..i], c);
    } else {
      assert forall ch :: ch in s ==> ch != c;
    }
  }

  /** Joining the pieces of a split gives the string back. */
  lemma {:induction false} JoinSplit(s: string, c: char)
    ensures Join(Split(s, c), c) == s
    decreases |s|
  {
    var i := LastIndex(s, c);
    if i >= 0 {
      var front := Split(s[..i], c);
      var parts := front + [s[i + 1..]];
      assert Split(s, c) == parts;
      assert parts[..|parts| - 1] == front;
      assert Join(parts, c) == Join(front, c) + [c] + s[i + 1..];
      JoinSplit(s[..i], c);
      assert s == s[..i] + [c] + s[i + 1..];
    }
  }

  /** Splitting a join of separator-free pieces gives the pieces back. */
  lemma {:induction false} SplitJoin(parts: seq<string>, c: char)
    requires |parts| > 0
    requires forall i :: 0 <= i < |parts| ==> c !in parts[i]
    ensures Split(Join(parts, c), c) == parts
    decreases |parts|
  {
    if |parts| == 1 {
      SplitSingle(parts[0], c);
    } else {
      var front := parts[..|parts| - 1];
      assert Join(parts, c) == Join(front, c) + [c] + Last(parts);
      SplitAfterSeparator(Join(front, c), c, Last(parts));
      SplitJoin(front, c);
      FrontAndLast(parts);
    }
  }

  /** A separator-free string splits into itself. */
  lemma SplitSingle(s: string, c: char)
    requires c !in s
    ensures Split(s, c) == [s]
  {
    LastIndexAt(s, c, -1);
  }

  /** A separator followed by a separator-free tail cuts off exactly one last piece. */
  lemma SplitAfterSeparator(front: string, c: char, tail: string)
    requires c !in tail
    ensures Split(front + [c] + tail, c) == Split(front, c) + [tail]
  {
    var s := front + [c] + tail;
    assert s[|front|] == c;
    LastIndexAt(s, c, |front|);
    assert s[..|front|] == front;
    assert s[|front| + 1..] == tail;
  }

  /** The pieces that are not empty, in order. */
  function NonEmpty(parts: seq<string>): (r: seq<string>)
    ensures |r| <= |parts|
    ensures forall i :: 0 <= i < |r| ==> r[i] != [] && r[i] in parts
    ensures forall p :: p in parts && p != [] ==> p in r
  {
    if |parts| == 0 then []
    else
      var rest := NonEmpty(parts[1..]);
      assert forall p :: p in parts[1..] ==> p in parts;
      assert forall p :: p in parts && p != parts[0] ==> p in parts[1..];
      if parts[0] == [] then rest else [parts[0]] + rest
  }

  /** ASCII lower-casing of one character. */
  function Lower(ch: char): char {
    if 'A' <= ch <= 'Z' then (ch as int + 32) as char else ch
  }

  /** `strings.ToLower`, restricted to ASCII letters. */
  function ToLower(s: string): (r: string)
    ensures |r| == |s|
    ensures forall i :: 0 <= i < |s| ==> r[i] == Lower(s[i])
  {
    seq(|s|, i requires 0 <= i < |s| => Lower(s[i]))
  }

  /** Lower-casing twice is lower-casing once. */
  lemma ToLowerIdempotent(s: string)
    ensures ToLower(ToLower(s)) == ToLower(s)
  {
  }

  const MinInt64: int := -0x8000_0000_0000_0000
  const MaxInt64: int := 0x7fff_ffff_ffff_ffff

  predicate IsDigit(ch: char) {
    '0' <= ch <= '9'
  }

  predicate AllDigits(s: string) {
    forall i :: 0 <= i < |s| ==> IsDigit(s[i])
  }

  /** The decimal value of a digit string, most significant digit first. */
  function DigitsValue(s: string): nat
    requires AllDigits(s)
  {
    if |s| == 0 then 0
    else DigitsValue(s[..|s| - 1]) * 10 + (Last(s) as int - '0' as int)
  }

  /** Decimal digits of `n` with no leading zero (the `%d` verb on a non-negative value). */
  function NatToString(n: nat): (s: string)
    ensures |s| > 0 && AllDigits(s)
  {
    var d := ('0' as int + n % 10) as char;
    if n < 10 then [d] else NatToString(n / 10) + [d]
  }

  /** `fmt.Sprintf("%d", n)`. */
  function IntToString(n: int): (s: string)
    ensures |s| > 0
    ensures forall i :: 0 <= i < |s| ==> IsDigit(s[i]) || (i == 0 && s[i] == '-')
  {
    if n < 0 then "-" + NatToString(-n) else NatToString(n)
  }

  /** The text `strconv.Atoi` reads as a number: an optional sign, then at least one
      decimal digit. */
  predicate NumberSyntax(s: string) {
    |s| > 0 &&
    var body := if s[0] == '-' || s[0] == '+' then s[1..] else s;
    |body| > 0 && AllDigits(body)
  }

  /** The value of text with number syntax. */
  function SignedValue(s: string): int
    requires NumberSyntax(s)
  {
    var signed := s[0] == '-' || s[0] == '+';
    var magnitude: int := DigitsValue(if signed then s[1..] else s);
    if s[0] == '-' then -magnitude else magnitude
  }

  /** `strconv.Atoi` on a 64-bit platform: text with number syntax whose value fits in an
      `int64`; anything else is an error. */
  function Atoi(s: string): (r: Option<int>)
    ensures r.Some? <==> NumberSyntax(s) && MinInt64 <= SignedValue(s) <= MaxInt64
    ensures r.Some? ==> r.value == SignedValue(s)
    ensures |s| == 0 ==> r.None?
    ensures r.Some? ==> forall i :: 0 <= i < |s| ==> IsDigit(s[i]) || (i == 0 && (s[i] == '-' || s[i] == '+'))
  {
    if !NumberSyntax(s) then None
    else
      var v := SignedValue(s);
      if MinInt64 <= v <= MaxInt64 then Some(v) else None
  }

  const MaxUint64: int := 0xffff_ffff_ffff_ffff

  /** Why `strconv.Atoi` rejects a text: `strconv.ErrSyntax` or `strconv.ErrRange`. */
  datatype NumError = ErrSyntax | ErrRange

  function NumErrorText(err: NumError): string {
    match err
    case ErrSyntax => "invalid syntax"
    case ErrRange => "value out of range"
  }

  /** The text after an optional leading sign, as `ParseInt` hands it to `ParseUint`. */
  function Unsigned(s: string): (body: string)
    ensures |body| <= |s| && body == s[|s| - |body|..]
  {
    if |s| > 0 && (s[0] == '-' || s[0] == '+') then s[1..] else s
  }

  /** The length of the run of decimal digits `s` starts with. */
  function DigitRun(s: string): (k: nat)
    ensures k <= |s| && forall j :: 0 <= j < k ==> IsDigit(s[j])
    ensures k < |s| ==> !IsDigit(s[k])
  {
    if |s| == 0 || !IsDigit(s[0]) then 0 else 1 + DigitRun(s[1..])
  }

  /** Where `ParseUint`'s scan stops. */
  datatype UintScan = Scanned(value: nat) | ScanSyntax | ScanRange

  /** The loop of `strconv.ParseUint(s, 10, 64)` from position `i`, with `n` read so far:
      a non-digit stops it with a syntax error, and a digit that takes the value past
      2^64 - 1 stops it with a range error, whichever it meets first. */
  function ScanUint(s: string, i: nat, n: nat): UintScan
    requires i <= |s|
    decreases |s| - i
  {
    if i == |s| then Scanned(n)
    else if !IsDigit(s[i]) then ScanSyntax
    else
      var n1 := n * 10 + (s[i] as int - '0' as int);
      if n1 > MaxUint64 then ScanRange else ScanUint(s, i + 1, n1)
  }

  /** Appending digits never lowers the value read so far. */
  lemma {:induction false} DigitsValueGrows(s: string, a: nat, b: nat)
    requires a <= b <= |s| && AllDigits(s[..b])
    ensures DigitsValue(s[..a]) <= DigitsValue(s[..b])
    decreases b - a
  {
    if a < b {
      assert s[..b][..b - 1] == s[..b - 1];
      DigitsValueGrows(s, a, b - 1);
    }
  }

  /** The scan stops on the first of its two failures: a range error exactly when the
      leading digit run is worth more than 2^64 - 1, a syntax error when the run fits but
      a non-digit follows it, and otherwise it reads the whole text. */
  lemma {:induction false} ScanUintMeetsFirst(s: string, i: nat, n: nat)
    requires i <= DigitRun(s) && n == DigitsValue(s[..i]) <= MaxUint64
    ensures var k := DigitRun(s);
      ScanUint(s, i, n) ==
        if DigitsValue(s[..k]) > MaxUint64 then ScanRange
        else if k < |s| then ScanSyntax
        else Scanned(DigitsValue(s))
    decreases |s| - i
  {
    var k := DigitRun(s);
    if i == |s| {
      assert s[..i] == s;
    } else if i < k {
      var n1 := n * 10 + (s[i] as int - '0' as int);
      assert s[..i + 1][..i] == s[..i];
      assert DigitsValue(s[..i + 1]) == n1;
      DigitsValueGrows(s, i + 1, k);
      if n1 <= MaxUint64 {
        ScanUintMeetsFirst(s, i + 1, n1);
      }
    }
  }

  /** The error `strconv.Atoi` reports for a text it rejects, found the way `ParseInt`
      finds it: an empty text or sign is a syntax error, `ParseUint`'s scan decides the
      rest, and a digit run that fits 64 bits but not an `int64` is a range error. */
  function AtoiErr(s: string): (err: NumError)
    requires Atoi(s).None?
    ensures var body := Unsigned(s); var k := DigitRun(body);
      err == ErrRange <==> |body| > 0 && (k == |body| || DigitsValue(body[..k]) > MaxUint64)
  {
    var body := Unsigned(s);
    if |body| == 0 then ErrSyntax
    else
      ScanUintMeetsFirst(body, 0, 0);
      if ScanUint(body, 0, 0) == ScanSyntax then ErrSyntax else ErrRange
  }

  /** The text of the error `strconv.Atoi` returns (`strconv.Quote`'s escaping of unusual
      characters is not modelled). */
  function AtoiError(s: string): string
    requires Atoi(s).None?
  {
    "strconv.Atoi: parsing \"" + s + "\": " + NumErrorText(AtoiErr(s))
  }

  /** Text whose leading digits are already worth more than 2^64 - 1 is a range error,
      whatever follows them: the scan never reaches a later non-digit. */
  lemma RangeBeforeSyntax(digits: string, rest: string)
    requires |digits| > 0 && AllDigits(digits) && DigitsValue(digits) > MaxUint64
    ensures Atoi(digits + rest).None?
    ensures AtoiErr(digits + rest) == ErrRange
  {
    var s := digits + rest;
    assert Unsigned(s) == s;
    var k := DigitRun(s);
    assert forall j :: 0 <= j < |digits| ==> s[j] == digits[j];
    assert s[..|digits|] == digits;
    DigitsValueGrows(s, |digits|, k);
    if NumberSyntax(s) {
      assert s[..k] == s;
    }
  }

  /** The digit run is the first `k` characters when they are digits and no digit follows. */
  lemma DigitRunIs(s: string, k: nat)
    requires k <= |s| && forall j :: 0 <= j < k ==> IsDigit(s[j])
    requires k < |s| ==> !IsDigit(s[k])
    ensures DigitRun(s) == k
  {
  }

  /** A rejected text whose leading digits fit in 64 bits but do not reach its end is a
      syntax error. */
  lemma AtoiErrSyntax(s: string)
    requires Atoi(s).None?
    requires var body := Unsigned(s); var k := DigitRun(body);
      k < |body| && DigitsValue(body[..k]) <= MaxUint64
    ensures AtoiErr(s) == ErrSyntax
  {
  }

  /** Text that is a number but for what follows its digits is a syntax error when those
      digits fit in 64 bits. */
  lemma SyntaxAfterDigits(digits: string, ch: char, rest: string)
    requires |digits| > 0 && AllDigits(digits) && DigitsValue(digits) <= MaxUint64 && !IsDigit(ch)
    ensures Atoi(digits + [ch] + rest).None?
    ensures AtoiErr(digits + [ch] + rest) == ErrSyntax
  {
    var s := digits + [ch] + rest;
    var k := |digits|;
    assert forall j :: 0 <= j < k ==> s[j] == digits[j];
    assert s[k] == ch;
    assert Unsigned(s) == s;
    assert !NumberSyntax(s);
    DigitRunIs(s, k);
    assert s[..k] == digits;
    AtoiErrSyntax(s);
  }

  lemma {:induction false} DigitsValueOfNatToString(n: nat)
    ensures DigitsValue(NatToString(n)) == n
  {
    if n >= 10 {
      var front := NatToString(n / 10);
      var s := NatToString(n);
      assert s[..|s| - 1] == front;
      DigitsValueOfNatToString(n / 10);
    }
  }

  /** `strconv.Atoi` reads back exactly what `%d` printed, for every `int64`. */
  lemma AtoiOfIntToString(n: int)
    requires MinInt64 <= n <= MaxInt64
    ensures Atoi(IntToString(n)) == Some(n)
  {
    var s := IntToString(n);
    if n < 0 {
      assert s[1..] == NatToString(-n);
      DigitsValueOfNatToString(-n);
    } else {
      DigitsValueOfNatToString(n);
    }
  }
}

=== FILE: values.dfy ===
/** The dynamic values that travel in a log entry's field map (`logrus.Fields`, a
    `map[string]interface{}`), described by what the hooks can ask of them. */
module Values {
  import opened Wrappers

  /** A bugsnag `errors.StackFrame`, the frame type of a report. */
  datatype ReportFrame = ReportFrame(file: string, lineNumber: int, name: string, package: string, pc: int)

  /** One frame of a pkg/errors `StackTrace`: its program counter and the outcome of its
      `MarshalText`, the frame text `"<function> <file>:<line>"` or an error. */
  datatype TraceFrame = TraceFrame(pc: int, text: Result<string>)

  /** A Go `error`: its `Error()` text and the optional methods the bugsnag hook probes for,
      `StackFrames()` (bugsnag's `ErrorWithStackFrames`) and `StackTrace()` (pkg/errors). */
  datatype GoError = GoError(message: string, frames: Option<seq<ReportFrame>>, trace: Option<seq<TraceFrame>>)

  /** A field value: the dynamic types the hooks tell apart, a `nil` interface, and
      everything else as an opaque token. */
  datatype Value = Str(s: string) | Bytes(b: seq<bv8>) | Err(e: GoError) | Nil | Other(id: int)

  /** `logrus.Fields`. */
  type Fields = map<string, Value>

  /** The byte at a character position of a Go string (one `char` per byte). */
  function ByteOf(ch: char): bv8 {
    (ch as int % 256) as bv8
  }

  /** `[]byte(s)`. */
  function StringBytes(s: string): (b: seq<bv8>)
    ensures |b| == |s|
    ensures forall i :: 0 <= i < |s| ==> b[i] == ByteOf(s[i])
  {
    seq(|s|, i requires 0 <= i < |s| => ByteOf(s[i]))
  }
}

=== FILE: wrappers.dfy ===
/** Failure-carrying values used across the model: Go's `nil`-able values become
    `Option`, and Go's `(value, error)` returns become `Result`. */
module Wrappers {

  datatype Option<+T> = None | Some(value: T) {

    /** Returns the carried value, or `default` when there is none. */
    function GetOr(default: T): T {
      match this
      case Some(v) => v
      case None => default
    }
  }

  /** A Go `(value, err)` pair where exactly one side is meaningful. */
  datatype Result<+T> = Success(value: T) | Failure(error: string)
}
